=== FILE: README.md ===
# sting.data — typed features and the C4.5 parser, in Dafny

This project models the data layer of `sting`. It covers two things.

The typed feature model:
- `FeatureType`, with the three kinds BINARY, NOMINAL and CONTINUOUS.
- The `Feature` constructor and its guards. The kind may be given by name, in any case. A NOMINAL feature needs labels, and the other kinds refuse them.
- An ordering, so that `sorted()` works on features. Only its being a total order matters; the key (kind, then name, then labels) is this model's choice.
- The canonical float encoding of each kind (`to_float`) and its inverse (`from_float`).

The C4.5 parser:
- Line trimming (`_trim_line`).
- Finding the `.names` / `.data` file pair (`_find_file`).
- Reading the schema (`_parse_schema`).
- Reading the records under the schema (`_parse_and_preprocess_csv`).
- The whole pipeline (`parse_c45`). It returns the schema, the feature matrix `X` and the label vector `y`.

The model is purely functional: datatypes, functions and lemmas. This matches the source, where every operation computes a value from its inputs. Files are passed in as their lines. A directory tree is passed in as the list of paths a walk visits. Every failure the Python code raises becomes an `Err` of the `Error` datatype. No failure is a precondition.

Modules:
- `Outcomes` (outcomes.dfy): `Option`, `Result` and the error kinds.
- `Text` (text.dfy): whitespace stripping, splitting and joining on a separator, ASCII upper-casing and decimal number reading, with their round trips.
- `Features` (features.dfy): the feature kinds, the `Feature` constructor and the `to_float` / `from_float` pair.
- `FeatureOrder` (feature_order.dfy): a total order on features and a sort proved against it.
- `C45` (c45.dfy): trimming, file lookup, schema parsing, and the rendering of a schema as a `.names` file.
- `C45Data` (c45_data.dfy): cells, records, numbered rows and the `parse_c45` pipeline.
- `Fixture` (fixture.dfy): the example dataset of the test suite, followed through the model.

The implementation module `sting/data.py` is not part of this model. Its behaviour is pinned down here by the assertions of `test/test_data.py`. The error kinds, the accepted native forms of each kind and the layout of a `.data` record are modelled as well. Three readings deserve a note:
- Trimming drops exactly one terminating period. This is the model's own choice. Test lines 150-151 use a line with a single period, so they agree both with this rule and with dropping every trailing period.
- Rows are numbered 1..n over the non-blank records, in file order (test line 161).
- A missing value (`?` or an empty field) is `None` in the matrix; pandas shows it as NaN (test lines 121 and 125).

## Model

| member | source | states |
|---|---|---|
| Features.ParseFeatureType | test/test_data.py:21-28 | a kind name is accepted exactly when its ASCII upper-case form is one of BINARY, NOMINAL, CONTINUOUS, and then gives that kind; any other name is an `InvalidFeatureType` error carrying the name |
| Features.ParseTypeName | test/test_data.py:21-28 | every kind's own name reads back as that kind |
| Features.NewFeature | test/test_data.py:21-39 | the constructor succeeds exactly when the kind resolves, labels are present iff the kind is NOMINAL, and they are unique; a result is valid and keeps the name, the kind and the labels; no labels for NOMINAL is `MissingNominalValues`, labels for another kind is `UnexpectedValues`, a bad kind name propagates its error |
| Features.StringTypeNormalises | test/test_data.py:21-28 | naming the kind by string builds the same feature as passing the kind, and the built feature has that kind |
| Features.ValuesGuard | test/test_data.py:30-39 | NOMINAL without labels (absent or empty) and BINARY / CONTINUOUS with labels are refused with the matching error |
| Features.IndexOf | test/test_data.py:62-72 | finds the first position of a label, and finds nothing exactly when the label is absent |
| Features.IndexOfDistinct | test/test_data.py:62-72 | in a list of unique labels each label is found at its own position |
| Features.ToFloat | test/test_data.py:52-78 | encoding succeeds exactly on the values the kind accepts: for BINARY a bool, 0 or 1; for NOMINAL a declared label, an ordinal 1..n, or a member whose label sits at its ordinal; for CONTINUOUS any number, bool or numeric label. A success lies in the canonical range (0/1, an ordinal 1..n, anything). A failure is `InvalidBinaryEncoding`, `UnknownNominalValue` or `InvalidContinuousValue` according to the kind |
| Features.FromFloat | test/test_data.py:80-98 | decoding succeeds exactly on the canonical range and yields the canonical native form (a bool, the member with that ordinal, or the number), which encodes back to the same number; a failure is the kind's own error |
| Features.DecodeEncode | test/test_data.py:80-98 | encoding a decoded number gives the number back |
| Features.EncodeDecode | test/test_data.py:52-98 | decoding an encoding gives a value with the same encoding, and gives back the value itself when it was already canonical |
| Features.BinaryEncoding | test/test_data.py:55-60 | False, 0 and 0.0 encode to 0.0, True, 1 and 1.0 to 1.0 (the float form is the `to_float(1.0)` of test line 86), and 0.0 / 1.0 decode to False / True |
| Features.NominalFormsAgree | test/test_data.py:62-72 | a label, its member and its 1-based ordinal, given as an integer or as a float, all encode to that ordinal, and the ordinal decodes to the member |
| Features.ContinuousIdentity | test/test_data.py:74-78 | for CONTINUOUS both directions are the identity |
| FeatureOrder.StrLeReflexive | test/test_data.py:41-50 | string order is reflexive |
| FeatureOrder.StrLeAntisymmetric | test/test_data.py:41-50 | string order is antisymmetric |
| FeatureOrder.StrLeTransitive | test/test_data.py:41-50 | string order is transitive |
| FeatureOrder.StrLeTotal | test/test_data.py:41-50 | any two strings are comparable |
| FeatureOrder.LabelsLeReflexive | test/test_data.py:41-50 | label-list order is reflexive |
| FeatureOrder.LabelsLeAntisymmetric | test/test_data.py:41-50 | label-list order is antisymmetric |
| FeatureOrder.LabelsLeTransitive | test/test_data.py:41-50 | label-list order is transitive |
| FeatureOrder.LabelsLeTotal | test/test_data.py:41-50 | any two label lists are comparable |
| FeatureOrder.FeatureLeTotalOrder | test/test_data.py:41-50 | the feature order (kind, then name, then labels) is reflexive, total, antisymmetric and transitive, so any list of features can be sorted |
| FeatureOrder.Insert | test/test_data.py:41-50 | inserting into a sorted list keeps it sorted and adds exactly the one feature |
| FeatureOrder.SortedCons | test/test_data.py:41-50 | a feature ordered before the head of a sorted list extends it to a sorted list |
| FeatureOrder.SortFeatures | test/test_data.py:41-50 | the sorted list is ordered and a permutation of the input |
| FeatureOrder.SortedHeadLeast | test/test_data.py:41-50 | the head of a sorted list is below every element |
| FeatureOrder.SortedUnique | test/test_data.py:41-50 | two sorted permutations of the same features are equal |
| FeatureOrder.SortDeterministic | test/test_data.py:41-50 | sorting depends only on the multiset of features, not on their input order |
| Text.Strip | test/test_data.py:146-151 | the result has no whitespace at either end and is the slice of the input after its leading whitespace, with only whitespace after it |
| Text.StripStripped | test/test_data.py:146-151 | stripping an already stripped string changes nothing |
| Text.Find | test/test_data.py:146-151 | finds the first occurrence of a character, and nothing exactly when it is absent |
| Text.FindAfter | test/test_data.py:146-151 | in `p + c + t` with no `c` in `p`, the first `c` is at `|p|` |
| Text.Split | test/test_data.py:153-164 | splitting gives at least one piece and no piece holds the separator |
| Text.JoinSplit | test/test_data.py:153-164 | joining the pieces of a split gives back the original string |
| Text.SplitJoin | test/test_data.py:153-164 | splitting joined separator-free fields gives back exactly those fields |
| Text.ShowNatValue | test/test_data.py:117-130 | a natural number's decimal digits read back as that number |
| Text.ParseNumberShowNat | test/test_data.py:117-130 | a natural number written with no sign, with `+` or with `-` reads back as the number or its negation |
| Text.ParseUnsignedPoint | test/test_data.py:117-130 | a number with a decimal point reads as its whole part plus its fraction scaled by the fraction's length |
| Text.PointValueTrailingZero | test/test_data.py:117-130 | appending a zero to the fraction does not change the value |
| Text.ParseUnsignedTrailingZero | test/test_data.py:117-130 | a trailing zero after the decimal point does not change the value read |
| C45.CommentFree | test/test_data.py:146-151 | the result is the prefix of the line before its first `#`, and holds no `#` |
| C45.CommentFreeAt | test/test_data.py:146-151 | the comment starts at the first `#` |
| C45.TrimLine | test/test_data.py:146-151 | the trimmed line holds no `#` and has no surrounding whitespace |
| C45.TrimLineShortens | test/test_data.py:146-151 | the trimmed line is a prefix of the stripped comment-free text, and shorter than it exactly when that text ends in a period, also when whitespace precedes the period |
| C45.DropPeriod | test/test_data.py:149-151 | what is left of a stripped line is a stripped prefix of it; something is dropped exactly when the line ends in a period, and then only that one period and the whitespace just before it |
| C45.TrimLineKeepsInfix | test/test_data.py:146-151 | the trimmed line is a slice of the comment-free text starting after its leading whitespace, followed there by whitespace holding at most one period |
| C45.TrimLineIdempotent | test/test_data.py:146-151 | trimming again changes nothing when the trimmed line does not itself end in a period |
| C45.TrimLineBlank | test/test_data.py:147-148 | the empty line and a lone `#` trim to the empty string |
| C45.TrimLineDropsPeriod | test/test_data.py:149-151 | a line whose comment-free text strips to a record plus a period trims to the record |
| C45.TrimLineRecord | test/test_data.py:150-151 | the sample line with a period and a comment trims to `6,1,Wednesday,0.86,A13,0` |
| C45.Records | test/test_data.py:153-169 | the kept lines are non-empty, free of comments and no more numerous than the input lines |
| C45.RecordsSingle | test/test_data.py:146-164 | one line yields its trimmed form as a record, or nothing when that is blank |
| C45.RecordsAppend | test/test_data.py:153-164 | the records of two runs of lines are the first run's followed by the second's, so together with RecordsSingle the records are exactly the non-blank trimmed lines, in file order |
| C45.RecordsStep | test/test_data.py:153-164 | the records of a non-empty run of lines are the first line's contribution (its trimmed form, or nothing when blank) ahead of the rest's records |
| C45.RecordsOfRecords | test/test_data.py:153-169 | lines that are already trimmed records are kept unchanged and in order |
| C45.BaseName | test/test_data.py:137-144 | the base name holds no `/` and is no longer than the path |
| C45.BaseNameSuffix | test/test_data.py:137-144 | the base name is the suffix of the path after its last `/`, or the whole path when it has none |
| C45.BaseNameOfJoin | test/test_data.py:137-144 | the file name placed under a directory is the base name of the joined path |
| C45.FirstMatch | test/test_data.py:137-144 | the position found is the first path of the walk with the wanted file name, or the end of the walk when no path has it |
| C45.FindFile | test/test_data.py:137-144 | a found path is a path of the walk with the wanted file name, and no earlier path has that name; `FileNotFound` for that name exactly when no path has it |
| C45.FindFileFirst | test/test_data.py:137-144 | conversely, the first path with the wanted file name is the one found |
| C45.Declare | test/test_data.py:101-115 | a declared feature is valid and has the given non-empty name; one kind token must name BINARY or CONTINUOUS, in any case, and a lone NOMINAL keyword is refused for lack of labels; two or more tokens declare a NOMINAL feature with exactly those labels, in order |
| C45.DeclareAccepts | test/test_data.py:101-115 | conversely, a non-empty name with one non-empty token naming BINARY or CONTINUOUS (in any case) declares that feature, and a non-empty name with two or more distinct non-empty labels declares the NOMINAL feature with exactly those labels |
| C45.DeclareKeywordAnyCase | test/test_data.py:101-115 | `binary`, `BINARY`, `Continuous` and every other letter-case variant of the two keywords are accepted and declare the matching kind |
| C45.ParseDecl | test/test_data.py:101-115 | a parsed declaration is a valid feature with a non-empty name, and the line holds a `:` |
| C45.Collect | test/test_data.py:101-115 | a successful collection keeps every parsed declaration, in order, and the names are distinct; a declaration that did not parse always fails it; a failure carries the number of a declaration that did not parse or whose name a later declaration repeats |
| C45.CollectAll | test/test_data.py:101-115 | declarations that all parsed, with distinct names, are collected to exactly those features |
| C45.ParseDecls | test/test_data.py:101-115 | a successful parse gives one feature per declaration, in order, with distinct names; a malformed declaration always fails; every failure is a `SchemaParseError` numbering one of the declarations |
| C45.ParseSchema | test/test_data.py:166-169 | the first record is the class line; each later record is one declared feature, in file order, with distinct names; a file without records is refused, and every failure is a `SchemaParseError` |
| C45.ParseSchemaBlames | test/test_data.py:101-115 | when a schema with records fails, the error numbers a declaration (record 1 or later) that is malformed or whose name a later declaration repeats (`Blamed`) |
| C45.CollectBlames | test/test_data.py:101-115 | a failed collection numbers a declaration that did not parse or whose name a later declaration repeats |
| C45.ParsedNamesOfAll | test/test_data.py:101-115 | when every declaration parsed, the names among the parsed declarations are exactly the features' names, in order |
| C45.DeclareRoundTrip | test/test_data.py:101-115 | a feature's name and kind tokens declare exactly that feature |
| C45.DeclRoundTrip | test/test_data.py:101-115 | the declaration line written for a declarable feature parses back to that feature |
| C45.KindTokens | test/test_data.py:101-115 | the kind part of a written declaration reads back as the labels of a NOMINAL feature, or as the one kind keyword otherwise |
| C45.RenderDeclsAreRecords | test/test_data.py:166-169 | every written declaration line is a record that trimming keeps as it is |
| C45.DeclsRoundTrip | test/test_data.py:166-169 | a list of declarable features with distinct names, written out, parses back to that list |
| C45.SchemaRoundTrip | test/test_data.py:166-169 | a schema written as a `.names` file under any class line parses back to exactly that schema, in order |
| C45.FieldsOfJoin | test/test_data.py:153-164 | fields written with commas between them read back as those fields |
| C45Data.ParseCell | test/test_data.py:117-130 | `?` and the empty field are missing; a present NOMINAL cell is its label's ordinal and is accepted exactly when it is a declared label; a present BINARY cell is accepted exactly when it is `True`, `False` or a number equal to 0 or 1, and encodes as that boolean or number; a present CONTINUOUS cell is accepted exactly when it is a number, and is that number; every cell lies in its feature's range and decodes; a failure is the column kind's own error |
| C45Data.BinaryCellTokens | test/test_data.py:55-60 | in a BINARY column `True` and `1` read as 1.0 and `False` and `0` as 0.0, as `to_float` encodes the booleans |
| C45Data.ParseLabel | test/test_data.py:117-130 | the class label is 0 or 1 and is the number written; any other number or text is refused |
| C45Data.ParseCells | test/test_data.py:117-130 | a record's cells parse exactly when every cell parses under its own column, and each cell keeps its column's position |
| C45Data.ExampleOf | test/test_data.py:117-130 | a parsed example has one cell per column and a 0/1 label |
| C45Data.ParseRecord | test/test_data.py:153-164 | a parsed record has one cell per column and a 0/1 label |
| C45Data.RecordLayout | test/test_data.py:153-164 | a record holds exactly one field per column and then the label; the cells are those fields parsed in schema order |
| C45Data.RecordOfFields | test/test_data.py:153-164 | conversely, fields that each parse under their column, followed by a label and written with commas, parse to that example |
| C45Data.MissingKeepsExample | test/test_data.py:117-130 | marking one field of a good record as missing keeps the record, with that one cell `None` and the rest unchanged |
| C45Data.MissingKeepsRecord | test/test_data.py:117-130 | the same, for the record written out with commas |
| C45Data.NumberRows | test/test_data.py:153-164 | rows are numbered consecutively in order; the first record that did not parse fails the whole file with its row number |
| C45Data.ParseRecords | test/test_data.py:153-164 | the records parse exactly when every one of them does; then row `i` has index `i + 1` and holds record `i`'s example; otherwise the error names the first record that does not parse |
| C45Data.NumberedWhenAllParse | test/test_data.py:153-164 | numbering the per-record parses succeeds exactly when every record parses, then numbers record `i` as row `i + 1`, and otherwise names the first record that does not parse |
| C45Data.MisshapenFirstRecord | test/test_data.py:146-164 | a first record whose field count is not the schema's width plus one (a leading id column, for one) makes the whole parse fail at row 1 |
| C45Data.ParseData | test/test_data.py:153-164 | the same over the non-blank records of the file, trimmed, in file order |
| C45Data.ToDataset | test/test_data.py:171-176 | the matrix and the label vector have one entry per row and keep each row's cells and label in row order |
| C45Data.Load | test/test_data.py:171-176 | loading succeeds exactly when the schema and then the data parse; the dataset is consistent, and row `i` of `X` and `y` is the data parse's row with index `i + 1`; a failure is the schema's error when the schema does not parse, and otherwise the data parse's error |
| C45Data.ParseC45 | test/test_data.py:171-176 | `parse_c45` succeeds exactly when both files are found and present and their pair loads, and is then that load; the result is consistent; a `.names` file that cannot be found is `FileNotFound` of that name, then likewise a `.data` file, then a found path with no contents is `FileNotFound` of that path |
| Fixture.ExampleSchemaDeclarable | test/test_data.py:101-115 | every feature of the test schema is declarable, and the names are distinct |
| Fixture.ExampleSchemaParses | test/test_data.py:166-169 | the `.names` file of the test schema parses to that schema |
| Fixture.FirstRecord | test/test_data.py:117-130 | the record `0,Monday,0.94,A12,1,0` gives the first row of `DATA` and label 0 |
| Fixture.FourthRecord | test/test_data.py:117-130 | the record `?,Thursday,1.1,A14,2,1` gives the fourth row of `DATA`, its BINARY cell missing, and label 1 |
| Fixture.ExampleFindFile | test/test_data.py:137-144 | a walk that passes the test file and then `example_data/` finds `example.data` and `example.names` there |
| Fixture.TwoRows | test/test_data.py:153-164 | two records that each parse give two rows numbered 1 and 2, in order |
| Fixture.ExampleRows | test/test_data.py:153-164 | a data file of those two records gives two rows indexed 1 and 2 |
| Fixture.LoadTwo | test/test_data.py:171-176 | a schema file and a two-row data file load as the dataset of those two rows, in order |
| Fixture.ExampleLoad | test/test_data.py:171-176 | the test's schema and two of its records load to the matching rows of `DATA` and `LABELS` |
| Fixture.ExampleDataset | test/test_data.py:171-176 | `parse_c45("example", …)` over that file pair gives the test schema, the two matrix rows in file order and the labels `[0, 1]` |

## Left out

- File reading and directory walking. `.names` and `.data` contents are given as lists of lines. The walk is the list of paths `os.walk` would visit, in order. Its visiting order is the walk's and is not modelled.
- Floating point. Numbers are exact `real`s. A missing cell is `None` instead of NaN. The "almost equal" comparisons of the tests become exact equalities.
- The pandas DataFrame and the numpy arrays are not modelled. Rows are a list of numbered examples. `X` and `y` are lists of lists.
- Number syntax. Only decimal numbers with an optional sign and an optional fractional part are read. The exponent form (`11e-1`), `inf`, `nan` and the underscore digit separators Python's `float()` also accepts are not. Test line 121 writes `11e-1` only as a Python literal, for 1.1.
- Text.Strip: only ASCII whitespace counts (space, tab, line feed, vertical tab, form feed, carriage return and the separators 0x1C to 0x1F). Python's `str.strip` also strips non-ASCII whitespace such as U+0085 and U+00A0. Text.Upper upper-cases ASCII letters only.
- The runtime `Enum` built from a NOMINAL feature's labels (`f.values.a`) is not modelled. A member is the pair of its label and its 1-based ordinal (`Native.Member`).
- C45.TrimLineIdempotent: trimming is idempotent only when the trimmed line does not end in a period. Only one terminating period is dropped, so `a..` trims to `a.` and then to `a`.
- The name check of the `Feature` constructor is not modelled: NewFeature accepts any name. Empty names are refused when a `.names` file is read (C45.Declare).
- Leading id column. Test line 150's sample line `6,1,Wednesday,0.86,A13,0` matches DATA row 6 (test line 123) with a leading `6` and without the f5 value. The records modelled here hold exactly one field per schema column and then the label. A data file whose records start with an id column therefore fails here with `RowParseError(1)` (C45Data.MisshapenFirstRecord). Test lines 161-162 give the expected frame an `index` column of 1..n; here the row index is the record's 1-based position among non-blank records.
- Error locations. `SchemaParseError(declaration)` and `RowParseError(row)` carry the index of the offending declaration or record among the non-blank records, not the file name or the physical line number. Blank and comment-only lines make that index differ from the line number.
- `mkdocs.py` (documentation build) is not part of this model.

=== FILE: c45.dfy ===
/** The C4.5 parser: line trimming, locating the `.names` / `.data` pair, reading the schema
    and interpreting the data records under it. File contents are given as sequences of lines
    and a directory tree as the list of paths a walk visits. */
module C45 {
  import opened Outcomes
  import opened Features
  import Text

  // ---------------------------------------------------------------- line trimming

  /** The part of a line before its first `#`. */
  function CommentFree(raw: string): (r: string)
    ensures '#' !in r && |r| <= |raw| && r == raw[..|r|]
    ensures |r| < |raw| ==> raw[|r|] == '#'
  {
    match Text.Find(raw, '#')
    case None => raw
    case Some(k) => raw[..k]
  }

  /** `_trim_line`: drop the comment, the surrounding whitespace and one record-terminating
      period. */
  function TrimLine(raw: string): (r: string)
    ensures '#' !in r && Text.Stripped(r)
  {
    DropPeriod(Text.Strip(CommentFree(raw)))
  }

  /** Drops one period ending a stripped line, and the whitespace this uncovers: what is left is
      a prefix of the line; something is dropped exactly when the line ends in a period, and then
      only that period and the whitespace before it. */
  function DropPeriod(body: string): (r: string)
    requires Text.Stripped(body)
    ensures Text.Stripped(r) && |r| <= |body| && r == body[..|r|]
    ensures |body| > 0 && body[|body| - 1] == '.' ==> |r| < |body|
    ensures |r| < |body| ==>
      body[|body| - 1] == '.' && forall i :: |r| <= i < |body| - 1 ==> Text.IsSpace(body[i])
  {
    if |body| > 0 && body[|body| - 1] == '.' then
      var shorter := body[..|body| - 1];
      assert shorter == [] || shorter[0] == body[0];
      assert Text.LeadingSpaces(shorter) == 0;
      assert forall i :: 0 <= i < |shorter| ==> shorter[i] == body[i];
      Text.Strip(shorter)
    else body
  }

  /** Whitespace holding at most one period. */
  ghost predicate SpacesAndOnePeriod(t: string) {
    exists p :: SpacesExcept(t, p)
  }

  /** Every character but the one at `p` is whitespace, and that one, if `p` is a position of
      `t`, is a period. */
  predicate SpacesExcept(t: string, p: int) {
    && (forall i :: 0 <= i < |t| && i != p ==> Text.IsSpace(t[i]))
    && (0 <= p < |t| ==> t[p] == '.')
  }

  /** TrimLine keeps a prefix of the stripped comment-free text, and shortens it exactly when
      that text ends in a period, even one set off by whitespace (`a .` trims to `a`). */
  lemma TrimLineShortens(raw: string)
    ensures var body, r := Text.Strip(CommentFree(raw)), TrimLine(raw);
      |r| <= |body| && r == body[..|r|] && (|r| < |body| <==> |body| > 0 && body[|body| - 1] == '.')
  {
    var body := Text.Strip(CommentFree(raw));
    assert TrimLine(raw) == DropPeriod(body);
  }

  /** `r` sits in `c` from position `n` on, and is followed there by whitespace holding at most
      one period. */
  ghost predicate KeptInfix(c: string, n: nat, r: string) {
    n + |r| <= |c| && r == c[n..n + |r|] && SpacesAndOnePeriod(c[n + |r|..])
  }

  /** What TrimLine keeps is a piece of the comment-free text, starting after its leading
      whitespace; everything after it there is whitespace and at most the one dropped period. */
  lemma TrimLineKeepsInfix(raw: string)
    ensures KeptInfix(CommentFree(raw), Text.LeadingSpaces(CommentFree(raw)), TrimLine(raw))
  {
    var c := CommentFree(raw);
    var body := Text.Strip(c);
    var r := DropPeriod(body);
    assert TrimLine(raw) == r;
    InfixOfInfix(c, Text.LeadingSpaces(c), body, r);
  }

  /** A prefix of a slice of `c` is a slice of `c`; when the slice is followed in `c` by
      whitespace only and the prefix by whitespace and a final period, what follows the prefix in
      `c` is whitespace with at most that period. */
  lemma InfixOfInfix(c: string, n: nat, body: string, r: string)
    requires n + |body| <= |c| && body == c[n..n + |body|]
    requires forall i :: n + |body| <= i < |c| ==> Text.IsSpace(c[i])
    requires |r| <= |body| && r == body[..|r|]
    requires |r| < |body| ==>
      body[|body| - 1] == '.' && forall i :: |r| <= i < |body| - 1 ==> Text.IsSpace(body[i])
    ensures KeptInfix(c, n, r)
  {
    var t := c[n + |r|..];
    var p := |body| - 1 - |r|;
    forall j | 0 <= j < |t| && j != p ensures Text.IsSpace(t[j]) {
      if j < |body| - |r| {
        assert t[j] == body[|r| + j];
      } else {
        assert t[j] == c[n + |r| + j];
      }
    }
    if |r| < |body| {
      assert t[p] == body[|body| - 1];
    }
    assert SpacesExcept(t, p);
  }

  /** Trimming is idempotent on every line whose trimmed form does not itself end in a period. */
  lemma TrimLineIdempotent(raw: string)
    requires TrimLine(raw) == [] || TrimLine(raw)[|TrimLine(raw)| - 1] != '.'
    ensures TrimLine(TrimLine(raw)) == TrimLine(raw)
  {
    var r := TrimLine(raw);
    assert Text.Find(r, '#') == None;
    assert CommentFree(r) == r;
    Text.StripStripped(r);
    assert DropPeriod(r) == r;
  }

  /** The empty line and a comment-only line trim to nothing. */
  lemma TrimLineBlank()
    ensures TrimLine("") == ""
    ensures TrimLine("#") == ""
  {
    assert Text.Find("#", '#') == Some(0);
  }

  /** The comment starts at the first `#`. */
  lemma CommentFreeAt(kept: string, comment: string)
    requires '#' !in kept
    ensures CommentFree(kept + "#" + comment) == kept
  {
    Text.FindAfter(kept, '#', comment);
    assert (kept + "#" + comment)[..|kept|] == kept;
  }

  /** The example record line loses its comment at the `#`. */
  lemma CommentCut()
    ensures CommentFree("6,1,Wednesday,0.86,A13,0. # lines may end with periods") == "6,1,Wednesday,0.86,A13,0. "
  {
    var cut := "6,1,Wednesday,0.86,A13,0. ";
    var comment := " lines may end with periods";
    assert cut + "#" + comment == "6,1,Wednesday,0.86,A13,0. # lines may end with periods";
    CommentFreeAt(cut, comment);
  }

  /** Stripping the comment-free example line drops only its trailing blank. */
  lemma StripDotted()
    ensures Text.Strip("6,1,Wednesday,0.86,A13,0. ") == "6,1,Wednesday,0.86,A13,0."
  {
    var dotted := "6,1,Wednesday,0.86,A13,0.";
    assert Text.Stripped(dotted);
    StripTrailingSpace(dotted);
  }

  /** One trailing blank is all Strip removes from an otherwise stripped, non-empty line. */
  lemma StripTrailingSpace(t: string)
    requires Text.Stripped(t) && t != []
    ensures Text.Strip(t + " ") == t
  {
    var cut := t + " ";
    assert cut[0] == t[0];
    assert Text.LeadingSpaces(cut) == 0;
  }

  /** A line whose comment-free text strips to a record and its period trims to the record. */
  lemma TrimLineDropsPeriod(raw: string, record: string)
    requires Text.Strip(CommentFree(raw)) == record + "." && Text.Stripped(record)
    ensures TrimLine(raw) == record
  {
    assert (record + ".")[..|record|] == record;
    Text.StripStripped(record);
  }

  /** A record with a terminating period and a trailing comment trims to the bare record. */
  lemma TrimLineRecord(line: string)
    requires line == "6,1,Wednesday,0.86,A13,0. # lines may end with periods"
    ensures TrimLine(line) == "6,1,Wednesday,0.86,A13,0"
  {
    CommentCut();
    StripDotted();
    RecordPeriod();
    TrimLineDropsPeriod(line, "6,1,Wednesday,0.86,A13,0");
  }

  /** The stripped example line is the bare record followed by its period. */
  lemma RecordPeriod()
    ensures "6,1,Wednesday,0.86,A13,0." == "6,1,Wednesday,0.86,A13,0" + "."
    ensures Text.Stripped("6,1,Wednesday,0.86,A13,0")
  {
  }

  /** The lines that carry content, trimmed, in file order. */
  function Records(lines: seq<string>): (recs: seq<string>)
    ensures forall i :: 0 <= i < |recs| ==> recs[i] != [] && '#' !in recs[i]
    ensures |recs| <= |lines|
  {
    if |lines| == 0 then []
    else
      var t := TrimLine(lines[0]);
      var rest := Records(lines[1..]);
      if t == [] then rest
      else
        assert forall i :: 0 < i <= |rest| ==> ([t] + rest)[i] == rest[i - 1];
        [t] + rest
  }

  /** One line yields its trimmed form, or nothing when that is blank. */
  lemma RecordsSingle(l: string)
    ensures Records([l]) == if TrimLine(l) == [] then [] else [TrimLine(l)]
  {
    assert [l][1..] == [];
  }

  /** The records of two runs of lines are those of the first run followed by those of the
      second: no line is dropped out of turn and none is reordered. */
  lemma {:induction false} RecordsAppend(a: seq<string>, b: seq<string>)
    ensures Records(a + b) == Records(a) + Records(b)
  {
    if |a| > 0 {
      assert (a + b)[0] == a[0] && (a + b)[1..] == a[1..] + b;
      RecordsAppend(a[1..], b);
      RecordsStep(a);
      RecordsStep(a + b);
    } else {
      assert a + b == b;
    }
  }

  /** Records takes the first line's trimmed form, unless blank, ahead of the rest's. */
  lemma RecordsStep(lines: seq<string>)
    requires |lines| > 0
    ensures Records(lines) == RecordOf(lines[0]) + Records(lines[1..])
  {
    var t, rest := TrimLine(lines[0]), Records(lines[1..]);
    if t == [] {
      assert RecordOf(lines[0]) + rest == rest;
    } else {
      assert RecordOf(lines[0]) == [t];
    }
  }

  /** The records one line contributes: its trimmed form, or none when that is blank. */
  function RecordOf(line: string): (r: seq<string>)
    ensures |r| <= 1
  {
    if TrimLine(line) == [] then [] else [TrimLine(line)]
  }

  /** A line that is already in trimmed form and not blank. */
  predicate IsRecord(line: string) {
    line != [] && '#' !in line && Text.Stripped(line) && line[|line| - 1] != '.'
  }

  /** Lines that are already records come through Records unchanged. */
  lemma {:induction false} RecordsOfRecords(lines: seq<string>)
    requires forall i :: 0 <= i < |lines| ==> IsRecord(lines[i])
    ensures Records(lines) == lines
  {
    if |lines| > 0 {
      var l := lines[0];
      assert Text.Find(l, '#') == None;
      Text.StripStripped(l);
      assert TrimLine(l) == l;
      RecordsOfRecords(lines[1..]);
      assert lines == [l] + lines[1..];
    }
  }

  // ---------------------------------------------------------------- locating files

  /** The last component of a `/`-separated path. */
  function BaseName(path: string): (b: string)
    ensures '/' !in b && |b| <= |path|
  {
    if |path| == 0 || path[|path| - 1] == '/' then []
    else BaseName(path[..|path| - 1]) + [path[|path| - 1]]
  }

  /** The base name is what follows the last `/` of the path: a suffix of it, preceded by a `/`
      unless it is the whole path. */
  lemma {:induction false} BaseNameSuffix(path: string)
    ensures var b := BaseName(path);
      b == path[|path| - |b|..] && (|b| < |path| ==> path[|path| - |b| - 1] == '/')
  {
    if |path| > 0 && path[|path| - 1] != '/' {
      var init := path[..|path| - 1];
      BaseNameSuffix(init);
      var b := BaseName(init);
      assert path[..|path| - 1] == init;
      assert BaseName(path) == b + [path[|path| - 1]];
      assert init[|init| - |b|..] + [path[|path| - 1]] == path[|path| - |b| - 1..];
      if |b| < |init| {
        assert path[|path| - |b| - 2] == init[|init| - |b| - 1];
      }
    }
  }

  /** A file name placed under a directory is the base name of the resulting path. */
  lemma {:induction false} BaseNameOfJoin(dir: string, file: string)
    requires '/' !in file
    ensures BaseName(dir + "/" + file) == file
  {
    var path := dir + "/" + file;
    if |file| > 0 {
      var init := file[..|file| - 1];
      assert path[..|path| - 1] == dir + "/" + init;
      assert path[|path| - 1] == file[|file| - 1] != '/';
      assert BaseName(path) == BaseName(dir + "/" + init) + [file[|file| - 1]];
      BaseNameOfJoin(dir, init);
      assert file == init + [file[|file| - 1]];
    } else {
      assert path[|path| - 1] == '/';
    }
  }

  /** The position of the first path of the walk whose file name is `filename`, or the length
      of the walk when there is none. */
  function FirstMatch(filename: string, walk: seq<string>): (k: nat)
    ensures k <= |walk|
    ensures k < |walk| ==> BaseName(walk[k]) == filename
    ensures forall i :: 0 <= i < k ==> BaseName(walk[i]) != filename
  {
    if |walk| == 0 || BaseName(walk[0]) == filename then 0
    else
      var k := FirstMatch(filename, walk[1..]);
      assert forall i :: 1 <= i <= k ==> walk[i] == walk[1..][i - 1];
      k + 1
  }

  /** `_find_file`: the first path of the walk whose file name is `filename`. */
  function FindFile(filename: string, walk: seq<string>): (r: Result<string>)
    ensures r.Ok? ==> exists k :: (0 <= k < |walk| && walk[k] == r.value && BaseName(walk[k]) == filename
                                   && forall i :: 0 <= i < k ==> BaseName(walk[i]) != filename)
    ensures r.Err? <==> forall i :: 0 <= i < |walk| ==> BaseName(walk[i]) != filename
    ensures r.Err? ==> r.error == FileNotFound(filename)
  {
    var k := FirstMatch(filename, walk);
    if k < |walk| then Ok(walk[k]) else Err(FileNotFound(filename))
  }

  /** The converse: the first path of the walk with the wanted file name is the one found. */
  lemma FindFileFirst(filename: string, walk: seq<string>, k: nat)
    requires k < |walk| && BaseName(walk[k]) == filename
    requires forall i :: 0 <= i < k ==> BaseName(walk[i]) != filename
    ensures FindFile(filename, walk) == Ok(walk[k])
  {
    FirstMatchAt(filename, walk, k);
  }

  lemma {:induction false} FirstMatchAt(filename: string, walk: seq<string>, k: nat)
    requires k < |walk| && BaseName(walk[k]) == filename
    requires forall i :: 0 <= i < k ==> BaseName(walk[i]) != filename
    ensures FirstMatch(filename, walk) == k
  {
    if k > 0 {
      assert BaseName(walk[0]) != filename;
      assert walk[1..][k - 1] == walk[k];
      assert forall i :: 0 <= i < k - 1 ==> walk[1..][i] == walk[i + 1];
      FirstMatchAt(filename, walk[1..], k - 1);
    }
  }

  // ---------------------------------------------------------------- schema

  function StripAll(parts: seq<string>): (r: seq<string>)
    ensures |r| == |parts|
  {
    seq(|parts|, i requires 0 <= i < |parts| => Text.Strip(parts[i]))
  }

  /** The comma-separated fields of a line, stripped. */
  function Fields(record: string): (fs: seq<string>)
    ensures |fs| >= 1
  {
    StripAll(Text.Split(record, ','))
  }

  /** A field that can be written between commas and read back unchanged. */
  predicate IsField(t: string) {
    ',' !in t && Text.Stripped(t)
  }

  /** Fields written with commas between them are read back as they were. */
  lemma FieldsOfJoin(tokens: seq<string>)
    requires |tokens| >= 1 && forall i :: 0 <= i < |tokens| ==> IsField(tokens[i])
    ensures Fields(Text.Join(tokens, ',')) == tokens
  {
    Text.SplitJoin(tokens, ',');
    forall i | 0 <= i < |tokens| ensures Text.Strip(tokens[i]) == tokens[i] {
      Text.StripStripped(tokens[i]);
    }
  }

  /** The feature a declaration names, from its name and its stripped, comma-separated kind
      tokens: one token is a type keyword, matched without regard to case; two or more are the
      labels of a NOMINAL feature. */
  function Declare(name: string, kinds: seq<string>): (r: Option<Feature>)
    ensures r.Some? ==> Valid(r.value) && r.value.name == name && name != []
    ensures r.Some? && r.value.ftype == Nominal ==> r.value.values == kinds && |kinds| >= 2
    ensures r.Some? && r.value.ftype != Nominal ==> |kinds| == 1 && ParseFeatureType(kinds[0]) == Ok(r.value.ftype)
  {
    if name == [] || |kinds| == 0 || [] in kinds then None
    else
      var made :=
        if |kinds| == 1 then NewFeature(name, Named(kinds[0]), None)
        else NewFeature(name, Given(Nominal), Some(kinds));
      if made.Ok? then Some(made.value) else None
  }

  /** When a declaration succeeds: a non-empty name with one non-empty token naming BINARY or
      CONTINUOUS (in any case), or with two or more distinct non-empty labels. */
  lemma DeclareAccepts(name: string, kinds: seq<string>)
    ensures name != [] && |kinds| == 1 && kinds[0] != [] && ParseFeatureType(kinds[0]).Ok?
            && ParseFeatureType(kinds[0]).value != Nominal ==>
      Declare(name, kinds) == Some(Feature(name, ParseFeatureType(kinds[0]).value, []))
    ensures name != [] && |kinds| >= 2 && [] !in kinds && Distinct(kinds) ==>
      Declare(name, kinds) == Some(Feature(name, Nominal, kinds))
  {
  }

  /** The BINARY and CONTINUOUS keywords are accepted in any letter case. */
  lemma DeclareKeywordAnyCase(name: string, keyword: string)
    requires name != [] && (Text.Upper(keyword) == "BINARY" || Text.Upper(keyword) == "CONTINUOUS")
    ensures Declare(name, [keyword]) ==
      Some(Feature(name, if Text.Upper(keyword) == "BINARY" then Binary else Continuous, []))
  {
    assert |Text.Upper(keyword)| == |keyword|;
    DeclareAccepts(name, [keyword]);
  }

  /** One `name: kind` declaration of a `.names` file. */
  function ParseDecl(decl: string): (r: Option<Feature>)
    ensures r.Some? ==> Valid(r.value) && r.value.name != [] && ':' in decl
  {
    match Text.Find(decl, ':')
    case None => None
    case Some(k) => Declare(Text.Strip(decl[..k]), Fields(decl[k + 1..]))
  }

  predicate DistinctNames(fs: seq<Feature>) {
    forall i, j :: 0 <= i < j < |fs| ==> fs[i].name != fs[j].name
  }

  function Names(fs: seq<Feature>): (ns: seq<string>)
    ensures |ns| == |fs|
  {
    seq(|fs|, i requires 0 <= i < |fs| => fs[i].name)
  }

  /** Declaration `k` is at fault: it did not parse, or a later declaration repeats its name. */
  predicate Blamed(parsed: seq<Option<Feature>>, k: int) {
    0 <= k < |parsed| && (parsed[k].None? || parsed[k].value.name in ParsedNames(parsed[k + 1..]))
  }

  /** The names of the declarations that parsed, in order. */
  function ParsedNames(parsed: seq<Option<Feature>>): (ns: seq<string>)
    ensures |ns| <= |parsed|
  {
    if |parsed| == 0 then []
    else (if parsed[0].Some? then [parsed[0].value.name] else []) + ParsedNames(parsed[1..])
  }

  /** When every declaration parsed, their names are the features' names. */
  lemma {:induction false} ParsedNamesOfAll(parsed: seq<Option<Feature>>, fs: seq<Feature>)
    requires |parsed| == |fs| && forall i :: 0 <= i < |fs| ==> parsed[i] == Some(fs[i])
    ensures ParsedNames(parsed) == Names(fs)
  {
    if |fs| > 0 {
      ParsedNamesOfAll(parsed[1..], fs[1..]);
      assert Names(fs) == [fs[0].name] + Names(fs[1..]);
    }
  }

  /** A failed collection names a declaration at fault. */
  lemma CollectBlames(parsed: seq<Option<Feature>>, pos: nat)
    ensures Collect(parsed, pos).Err? ==> Blamed(parsed, Collect(parsed, pos).error.declaration - pos)
  {
  }

  /** Collects parsed declarations numbered from `pos` on; a declaration that did not parse, or
      a name declared twice, fails with the number of the offending declaration. */
  function Collect(parsed: seq<Option<Feature>>, pos: nat): (r: Result<seq<Feature>>)
    ensures r.Ok? ==> |r.value| == |parsed| && DistinctNames(r.value)
    ensures r.Ok? ==> forall i :: 0 <= i < |parsed| ==> parsed[i] == Some(r.value[i])
    ensures r.Err? ==> r.error.SchemaParseError? && pos <= r.error.declaration < pos + |parsed|
    ensures r.Err? ==> Blamed(parsed, r.error.declaration - pos)
    ensures (exists i :: 0 <= i < |parsed| && parsed[i].None?) ==> r.Err?
    decreases |parsed|
  {
    if |parsed| == 0 then Ok([])
    else
      match parsed[0]
      case None => Err(SchemaParseError(pos))
      case Some(f) =>
        match Collect(parsed[1..], pos + 1)
        case Err(e) =>
          BlamedLater(parsed, e.declaration - (pos + 1));
          Err(e)
        case Ok(rest) =>
          if f.name in Names(rest) then
            ParsedNamesOfAll(parsed[1..], rest);
            Err(SchemaParseError(pos))
          else
            ConsDistinct(f, rest);
            assert forall i :: 0 < i < |parsed| ==> parsed[1..][i - 1] == parsed[i];
            Ok([f] + rest)
  }

  /** A fault in the declarations after the first is the same fault one position further on. */
  lemma BlamedLater(parsed: seq<Option<Feature>>, k: int)
    requires |parsed| > 0 && Blamed(parsed[1..], k)
    ensures Blamed(parsed, k + 1)
  {
    assert parsed[1..][k] == parsed[k + 1];
    assert parsed[1..][k + 1..] == parsed[k + 2..];
  }

  lemma ConsDistinct(f: Feature, rest: seq<Feature>)
    requires DistinctNames(rest) && f.name !in Names(rest)
    ensures DistinctNames([f] + rest)
  {
    var r := [f] + rest;
    forall i, j | 0 <= i < j < |r| ensures r[i].name != r[j].name {
      if i == 0 {
        assert r[j].name == Names(rest)[j - 1];
      } else {
        assert r[i] == rest[i - 1] && r[j] == rest[j - 1];
      }
    }
  }

  /** Every feature of a list with distinct names, each already parsed, is collected in order. */
  lemma {:induction false} CollectAll(schema: seq<Feature>, parsed: seq<Option<Feature>>, pos: nat)
    requires |parsed| == |schema| && DistinctNames(schema)
    requires forall i :: 0 <= i < |schema| ==> parsed[i] == Some(schema[i])
    ensures Collect(parsed, pos) == Ok(schema)
    decreases |schema|
  {
    if |schema| > 0 {
      var tail := schema[1..];
      assert forall i :: 0 <= i < |tail| ==> parsed[1..][i] == Some(tail[i]);
      assert DistinctNames(tail);
      CollectAll(tail, parsed[1..], pos + 1);
      assert schema[0].name !in Names(tail) by {
        forall j | 0 <= j < |tail| ensures Names(tail)[j] != schema[0].name {
          assert tail[j] == schema[j + 1];
        }
      }
      assert schema == [schema[0]] + tail;
    }
  }

  /** Each declaration parsed on its own. */
  function DeclsOf(decls: seq<string>): (parsed: seq<Option<Feature>>)
    ensures |parsed| == |decls|
    ensures forall i {:trigger ParseDecl(decls[i])} :: 0 <= i < |decls| ==> parsed[i] == ParseDecl(decls[i])
  {
    if |decls| == 0 then []
    else
      var rest := DeclsOf(decls[1..]);
      assert forall i :: 0 < i < |decls| ==> decls[1..][i - 1] == decls[i];
      [ParseDecl(decls[0])] + rest
  }


  /** The declarations numbered from `pos` on, each parsed in order, with distinct names. */
  function ParseDecls(decls: seq<string>, pos: nat): (r: Result<seq<Feature>>)
    ensures r.Ok? ==> |r.value| == |decls| && DistinctNames(r.value)
    ensures r.Ok? ==> forall i :: 0 <= i < |decls| ==> ParseDecl(decls[i]) == Some(r.value[i])
    ensures r.Err? ==> r.error.SchemaParseError? && pos <= r.error.declaration < pos + |decls|
    ensures (exists i :: 0 <= i < |decls| && ParseDecl(decls[i]).None?) ==> r.Err?
  {
    Collect(DeclsOf(decls), pos)
  }

  /** `_parse_schema`: the first record is the class line; each later one declares a feature. */
  function ParseSchema(lines: seq<string>): (r: Result<seq<Feature>>)
    ensures r.Ok? ==> |Records(lines)| >= 1 && |r.value| == |Records(lines)| - 1
    ensures r.Ok? ==> forall i :: 0 <= i < |r.value| ==>
      ParseDecl(Records(lines)[i + 1]) == Some(r.value[i]) && Valid(r.value[i])
    ensures r.Ok? ==> DistinctNames(r.value)
    ensures |Records(lines)| == 0 ==> r == Err(SchemaParseError(0))
    ensures r.Err? ==> r.error.SchemaParseError?
  {
    var recs := Records(lines);
    if |recs| == 0 then Err(SchemaParseError(0)) else ParseDecls(recs[1..], 1)
  }

  /** A schema that does not parse names the declaration at fault: one that is malformed or
      whose name a later declaration repeats, counted from 1 after the class line. */
  lemma ParseSchemaBlames(lines: seq<string>)
    ensures var r, recs := ParseSchema(lines), Records(lines);
      r.Err? && |recs| > 0 ==>
        && 1 <= r.error.declaration < |recs|
        && Blamed(DeclsOf(recs[1..]), r.error.declaration - 1)
  {
    var recs := Records(lines);
    if |recs| > 0 {
      CollectBlames(DeclsOf(recs[1..]), 1);
      assert ParseSchema(lines) == Collect(DeclsOf(recs[1..]), 1);
    }
  }

  /** A name or label that can be written into a declaration and read back unchanged. */
  predicate IsToken(t: string) {
    IsRecord(t) && ',' !in t && ':' !in t
  }

  /** A feature that a `.names` file can declare. */
  predicate Declarable(f: Feature) {
    Valid(f) && IsToken(f.name)
    && (f.ftype == Nominal ==> |f.values| >= 2 && forall i :: 0 <= i < |f.values| ==> IsToken(f.values[i]))
  }

  function KindText(f: Feature): string {
    match f.ftype
    case Binary => "binary"
    case Continuous => "continuous"
    case Nominal => Text.Join(f.values, ',')
  }

  /** The declaration line of a feature. */
  function RenderDecl(f: Feature): string {
    f.name + ":" + KindText(f)
  }

  /** A comma-joined list of tokens is itself a record holding no `:`. */
  lemma {:induction false} JoinIsRecord(ts: seq<string>)
    requires |ts| >= 1 && forall i :: 0 <= i < |ts| ==> IsToken(ts[i])
    ensures IsRecord(Text.Join(ts, ',')) && ':' !in Text.Join(ts, ',')
  {
    if |ts| > 1 {
      JoinIsRecord(ts[1..]);
      var j := Text.Join(ts[1..], ',');
      assert Text.Join(ts, ',') == ts[0] + [','] + j;
    }
  }

  /** The kind part of a declaration is a record holding no `:`. */
  lemma KindTextIsRecord(f: Feature)
    requires Declarable(f)
    ensures IsRecord(KindText(f)) && ':' !in KindText(f)
    ensures f.ftype != Nominal ==> ',' !in KindText(f)
  {
    if f.ftype == Nominal {
      JoinIsRecord(f.values);
    }
  }

  /** The kind part of a declaration splits back into its tokens. */
  lemma KindTokens(f: Feature)
    requires Declarable(f)
    ensures Fields(KindText(f)) == if f.ftype == Nominal then f.values else [KindText(f)]
  {
    if f.ftype == Nominal {
      FieldsOfJoin(f.values);
    } else {
      KindTextIsRecord(f);
      FieldsOfJoin([KindText(f)]);
    }
  }

  /** The two kind keywords upper-case to the names of their kinds. */
  lemma UpperKeywords()
    ensures Text.Upper("binary") == "BINARY"
    ensures Text.Upper("continuous") == "CONTINUOUS"
  {
  }

  /** Declaring a declarable feature's name with its own kind tokens gives the feature back. */
  lemma DeclareRoundTrip(f: Feature)
    requires Declarable(f)
    ensures Declare(f.name, if f.ftype == Nominal then f.values else [KindText(f)]) == Some(f)
  {
    match f.ftype
    case Nominal =>
    case Binary =>
      UpperKeywords();
    case Continuous =>
      UpperKeywords();
  }

  /** Every declarable feature, written as a declaration line, parses back to itself. */
  lemma DeclRoundTrip(f: Feature)
    requires Declarable(f)
    ensures ParseDecl(RenderDecl(f)) == Some(f)
  {
    var d := RenderDecl(f);
    var kt := KindText(f);
    KindTextIsRecord(f);
    assert d == f.name + [':'] + kt;
    Text.FindAfter(f.name, ':', kt);
    assert d[..|f.name|] == f.name && d[|f.name| + 1..] == kt;
    Text.StripStripped(f.name);
    KindTokens(f);
    DeclareRoundTrip(f);
  }

  lemma RenderDeclIsRecord(f: Feature)
    requires Declarable(f)
    ensures IsRecord(RenderDecl(f))
  {
    KindTextIsRecord(f);
  }

  /** The declaration lines of a schema, in order. */
  function RenderDecls(schema: seq<Feature>): (lines: seq<string>)
    ensures |lines| == |schema|
    ensures forall i :: 0 <= i < |schema| ==> lines[i] == RenderDecl(schema[i])
  {
    seq(|schema|, i requires 0 <= i < |schema| => RenderDecl(schema[i]))
  }

  /** The `.names` file declaring `schema` after the class line `classLine`. */
  function RenderSchema(classLine: string, schema: seq<Feature>): seq<string> {
    [classLine] + RenderDecls(schema)
  }

  lemma RenderDeclsAreRecords(schema: seq<Feature>)
    requires forall i :: 0 <= i < |schema| ==> Declarable(schema[i])
    ensures forall i :: 0 <= i < |schema| ==> IsRecord(RenderDecls(schema)[i])
  {
    forall i | 0 <= i < |schema| ensures IsRecord(RenderDecls(schema)[i]) {
      RenderDeclIsRecord(schema[i]);
    }
  }

  lemma DeclsRoundTrip(schema: seq<Feature>, pos: nat)
    requires forall i :: 0 <= i < |schema| ==> Declarable(schema[i])
    requires DistinctNames(schema)
    ensures ParseDecls(RenderDecls(schema), pos) == Ok(schema)
  {
    var decls := RenderDecls(schema);
    var parsed := DeclsOf(decls);
    forall i | 0 <= i < |schema| ensures parsed[i] == Some(schema[i]) {
      DeclRoundTrip(schema[i]);
    }
    CollectAll(schema, parsed, pos);
  }

  /** A schema of declarable features with distinct names, written as a `.names` file, parses
      back to exactly that schema, in that order. */
  lemma SchemaRoundTrip(classLine: string, schema: seq<Feature>)
    requires IsRecord(classLine)
    requires forall i :: 0 <= i < |schema| ==> Declarable(schema[i])
    requires DistinctNames(schema)
    ensures ParseSchema(RenderSchema(classLine, schema)) == Ok(schema)
  {
    var lines := RenderSchema(classLine, schema);
    RenderDeclsAreRecords(schema);
    forall i | 0 <= i < |lines| ensures IsRecord(lines[i]) {
      if i > 0 {
        assert lines[i] == RenderDecls(schema)[i - 1];
      }
    }
    RecordsOfRecords(lines);
    assert lines[1..] == RenderDecls(schema);
    DeclsRoundTrip(schema, 1);
  }
}

=== FILE: c45_data.dfy ===
/** Interpreting the records of a `.data` file under a parsed schema, and the whole
    `parse_c45` pipeline: locate the file pair, parse the schema, parse the records. */
module C45Data {
  import opened Outcomes
  import opened Features
  import Text
  import C45

  /** The values of one record: one cell per schema column (None where the value is missing)
      and its class label. */
  datatype Example = Example(cells: seq<Option<real>>, classLabel: int)

  /** One example with its 1-based row index. */
  datatype Row = Row(index: nat, example: Example)

  /** The tokens that stand for a missing value. */
  predicate IsMissing(token: string) {
    token == "?" || token == ""
  }

  /** The boolean tokens a BINARY cell may hold. */
  function BoolToken(token: string): Option<bool> {
    if token == "True" then Some(true) else if token == "False" then Some(false) else None
  }

  /** One cell: missing, or the token's canonical encoding under the column's feature (a label
      for NOMINAL columns, a boolean token or a decimal number for BINARY ones, a decimal number
      for CONTINUOUS ones). */
  function ParseCell(f: Feature, token: string): (r: Result<Option<real>>)
    ensures IsMissing(token) ==> r == Ok(None)
    ensures r.Ok? && r.value.Some? ==> InRange(f, r.value.value) && FromFloat(f, r.value.value).Ok?
    ensures r.Ok? && r.value.Some? && f.ftype == Nominal ==>
      FromFloat(f, r.value.value).value.memberName == token
    ensures r.Ok? && r.value.Some? && f.ftype == Binary ==>
      r.value == (if BoolToken(token).Some? then Some(if BoolToken(token).value then 1.0 else 0.0)
                  else Text.ParseNumber(token))
    ensures r.Ok? && r.value.Some? && f.ftype == Continuous ==> Text.ParseNumber(token) == r.value
    ensures f.ftype == Nominal && !IsMissing(token) ==> (r.Ok? <==> token in f.values)
    ensures f.ftype == Binary && !IsMissing(token) ==>
      (r.Ok? <==> BoolToken(token).Some? || Text.ParseNumber(token) == Some(0.0) || Text.ParseNumber(token) == Some(1.0))
    ensures f.ftype == Continuous && !IsMissing(token) ==> (r.Ok? <==> Text.ParseNumber(token).Some?)
    ensures r.Err? ==> r.error == RejectionOf(f.ftype)
  {
    if IsMissing(token) then Ok(None)
    else if f.ftype == Nominal then
      var x :- ToFloat(f, Label(token));
      Ok(Some(x))
    else if f.ftype == Binary && BoolToken(token).Some? then
      Ok(Some(ToFloat(f, Bool(BoolToken(token).value)).value))
    else
      match Text.ParseNumber(token)
      case None => Err(RejectionOf(f.ftype))
      case Some(x) =>
        var y :- ToFloat(f, Num(x));
        Ok(Some(y))
  }

  /** A BINARY cell reads `True` / `False` as `to_float` encodes those booleans, and `1` / `0`
      as the same two numbers. */
  lemma BinaryCellTokens(f: Feature)
    requires f.ftype == Binary
    ensures ToFloat(f, Bool(true)) == Ok(1.0) && ParseCell(f, "True") == Ok(Some(1.0))
    ensures ToFloat(f, Bool(false)) == Ok(0.0) && ParseCell(f, "False") == Ok(Some(0.0))
    ensures ParseCell(f, "1") == Ok(Some(1.0)) && ParseCell(f, "0") == Ok(Some(0.0))
  {
    Text.ParseNumberShowNat(0);
    Text.ParseNumberShowNat(1);
  }

  /** The class label: a number that is 0 or 1. */
  function ParseLabel(token: string): (r: Option<int>)
    ensures r.Some? ==> (r.value == 0 || r.value == 1) && Text.ParseNumber(token) == Some(r.value as real)
    ensures r.None? ==> Text.ParseNumber(token) != Some(0.0) && Text.ParseNumber(token) != Some(1.0)
  {
    match Text.ParseNumber(token)
    case Some(x) => if x == 0.0 then Some(0) else if x == 1.0 then Some(1) else None
    case None => None
  }

  /** The cells of one record, column by column. */
  function ParseCells(schema: seq<Feature>, tokens: seq<string>): (r: Result<seq<Option<real>>>)
    requires |tokens| == |schema|
    ensures r.Ok? <==> forall i :: 0 <= i < |schema| ==> ParseCell(schema[i], tokens[i]).Ok?
    ensures r.Ok? ==> |r.value| == |schema|
    ensures r.Ok? ==> forall i :: 0 <= i < |schema| ==> ParseCell(schema[i], tokens[i]) == Ok(r.value[i])
  {
    if |schema| == 0 then Ok([])
    else
      match ParseCell(schema[0], tokens[0])
      case Err(e) => Err(e)
      case Ok(c) =>
        var rest := ParseCells(schema[1..], tokens[1..]);
        assert forall i :: 0 < i < |schema| ==> schema[1..][i - 1] == schema[i] && tokens[1..][i - 1] == tokens[i];
        match rest
        case Err(e) => Err(e)
        case Ok(cs) => Ok([c] + cs)
  }

  /** An example that fits the schema: one cell per column and a 0/1 class label. */
  predicate Shaped(schema: seq<Feature>, e: Example) {
    |e.cells| == |schema| && (e.classLabel == 0 || e.classLabel == 1)
  }

  /** The example a record's fields hold: exactly one field per column, then the label. */
  function ExampleOf(schema: seq<Feature>, tokens: seq<string>): (r: Option<Example>)
    ensures r.Some? ==> Shaped(schema, r.value)
  {
    if |tokens| != |schema| + 1 then None
    else
      match ParseCells(schema, tokens[..|schema|])
      case Err(_) => None
      case Ok(cells) =>
        match ParseLabel(tokens[|schema|])
        case None => None
        case Some(c) => Some(Example(cells, c))
  }

  /** One record of a `.data` file. */
  function ParseRecord(schema: seq<Feature>, record: string): (r: Option<Example>)
    ensures r.Some? ==> Shaped(schema, r.value)
  {
    ExampleOf(schema, C45.Fields(record))
  }

  /** The layout of a record: the first |schema| fields are the cells, in schema order, and the
      one field after them is the class label. */
  lemma RecordLayout(schema: seq<Feature>, tokens: seq<string>)
    ensures var r := ExampleOf(schema, tokens);
      r.Some? ==>
        |tokens| == |schema| + 1 && |r.value.cells| == |schema|
        && (forall j :: 0 <= j < |schema| ==> ParseCell(schema[j], tokens[j]) == Ok(r.value.cells[j]))
        && ParseLabel(tokens[|schema|]) == Some(r.value.classLabel)
    ensures |tokens| != |schema| + 1 ==> ExampleOf(schema, tokens).None?
  {
  }

  /** The converse of the layout: fields that each parse under their column, followed by a class
      label, written with commas between them, parse to that example. */
  lemma RecordOfFields(schema: seq<Feature>, tokens: seq<string>, e: Example)
    requires |tokens| == |schema| + 1 && |e.cells| == |schema|
    requires forall i :: 0 <= i < |tokens| ==> C45.IsField(tokens[i])
    requires forall i :: 0 <= i < |schema| ==> ParseCell(schema[i], tokens[i]) == Ok(e.cells[i])
    requires ParseLabel(tokens[|schema|]) == Some(e.classLabel)
    ensures ParseRecord(schema, Text.Join(tokens, ',')) == Some(e)
  {
    C45.FieldsOfJoin(tokens);
    var cellTokens := tokens[..|schema|];
    assert forall i :: 0 <= i < |schema| ==> ParseCell(schema[i], cellTokens[i]) == Ok(e.cells[i]);
    var cs := ParseCells(schema, cellTokens);
    assert cs.Ok?;
    assert cs.value == e.cells;
  }

  /** A missing value does not drop its record: marking one field of a good record as missing
      gives the same example with that one cell missing. */
  lemma MissingKeepsExample(schema: seq<Feature>, tokens: seq<string>, j: nat)
    requires j < |schema| && ExampleOf(schema, tokens).Some?
    ensures var e := ExampleOf(schema, tokens).value;
      ExampleOf(schema, tokens[j := "?"]) == Some(Example(e.cells[j := None], e.classLabel))
  {
    RecordLayout(schema, tokens);
    var marked := tokens[j := "?"];
    var e := ExampleOf(schema, tokens).value;
    var before, after := tokens[..|schema|], marked[..|schema|];
    forall i | 0 <= i < |schema| ensures ParseCell(schema[i], after[i]) == Ok(e.cells[j := None][i]) {
      if i != j {
        assert after[i] == before[i] == tokens[i];
      }
    }
    var cells := ParseCells(schema, after);
    assert cells.Ok?;
    assert cells.value == e.cells[j := None];
    assert marked[|schema|] == tokens[|schema|];
  }

  /** The same, for a record written out with commas. */
  lemma MissingKeepsRecord(schema: seq<Feature>, tokens: seq<string>, j: nat)
    requires j < |schema| && |tokens| == |schema| + 1
    requires forall i :: 0 <= i < |tokens| ==> C45.IsField(tokens[i])
    requires ParseRecord(schema, Text.Join(tokens, ',')).Some?
    ensures var e := ParseRecord(schema, Text.Join(tokens, ',')).value;
      ParseRecord(schema, Text.Join(tokens[j := "?"], ',')) == Some(Example(e.cells[j := None], e.classLabel))
  {
    var marked := tokens[j := "?"];
    assert C45.IsField("?");
    C45.FieldsOfJoin(tokens);
    C45.FieldsOfJoin(marked);
    assert ParseRecord(schema, Text.Join(tokens, ',')) == ExampleOf(schema, tokens);
    assert ParseRecord(schema, Text.Join(marked, ',')) == ExampleOf(schema, marked);
    MissingKeepsExample(schema, tokens, j);
  }

  /** Numbers the parsed records from `first` on; the first record that did not parse fails the
      whole parse with its row number. */
  function NumberRows(parsed: seq<Option<Example>>, first: nat): (r: Result<seq<Row>>)
    ensures r.Ok? <==> forall i :: 0 <= i < |parsed| ==> parsed[i].Some?
    ensures r.Ok? ==> |r.value| == |parsed|
    ensures r.Ok? ==> forall i :: 0 <= i < |parsed| ==> r.value[i] == Row(first + i, parsed[i].value)
    ensures r.Err? ==>
      && r.error.RowParseError?
      && first <= r.error.row < first + |parsed|
      && parsed[r.error.row - first].None?
      && forall i :: 0 <= i < r.error.row - first ==> parsed[i].Some?
    decreases |parsed|
  {
    if |parsed| == 0 then Ok([])
    else if parsed[0].None? then Err(RowParseError(first))
    else
      var rest := NumberRows(parsed[1..], first + 1);
      assert forall i :: 0 < i < |parsed| ==> parsed[1..][i - 1] == parsed[i];
      match rest
      case Err(err) => Err(err)
      case Ok(rows) => Ok([Row(first, parsed[0].value)] + rows)
  }

  /** Each record parsed on its own. */
  function ParseAll(schema: seq<Feature>, records: seq<string>): (parsed: seq<Option<Example>>)
    ensures |parsed| == |records|
    ensures forall i :: 0 <= i < |records| ==> parsed[i] == ParseRecord(schema, records[i])
  {
    seq(|records|, i requires 0 <= i < |records| => ParseRecord(schema, records[i]))
  }

  /** Whether every record parses under the schema. */
  predicate AllParse(schema: seq<Feature>, records: seq<string>) {
    forall i :: 0 <= i < |records| ==> ParseRecord(schema, records[i]).Some?
  }

  /** `_parse_and_preprocess_csv`: one row per non-blank record, in file order, indexed 1..n. */
  function ParseData(schema: seq<Feature>, lines: seq<string>): (r: Result<seq<Row>>)
    ensures r.Ok? <==> AllParse(schema, C45.Records(lines))
    ensures r.Ok? ==> NumberedFrom(schema, C45.Records(lines), r.value)
    ensures r.Err? ==> FirstFailure(schema, C45.Records(lines), r.error)
  {
    ParseRecords(schema, C45.Records(lines))
  }

  /** The records of a `.data` file, numbered from 1; the first one that does not parse fails
      the whole parse. */
  function ParseRecords(schema: seq<Feature>, records: seq<string>): (r: Result<seq<Row>>)
    ensures r.Ok? <==> AllParse(schema, records)
    ensures r.Ok? ==> NumberedFrom(schema, records, r.value)
    ensures r.Err? ==> FirstFailure(schema, records, r.error)
  {
    var parsed := ParseAll(schema, records);
    NumberedWhenAllParse(schema, records, parsed);
    NumberRows(parsed, 1)
  }

  /** How NumberRows's per-position facts read over the records themselves. */
  lemma NumberedWhenAllParse(schema: seq<Feature>, records: seq<string>, parsed: seq<Option<Example>>)
    requires parsed == ParseAll(schema, records)
    ensures NumberRows(parsed, 1).Ok? <==> AllParse(schema, records)
    ensures NumberRows(parsed, 1).Ok? ==> NumberedFrom(schema, records, NumberRows(parsed, 1).value)
    ensures NumberRows(parsed, 1).Err? ==> FirstFailure(schema, records, NumberRows(parsed, 1).error)
  {
    var r := NumberRows(parsed, 1);
    if r.Ok? {
      forall i | 0 <= i < |r.value|
        ensures r.value[i].index == i + 1 && ParseRecord(schema, records[i]) == Some(r.value[i].example)
      {
        assert r.value[i] == Row(1 + i, parsed[i].value);
      }
    } else {
      var k := r.error.row - 1;
      assert parsed[k] == ParseRecord(schema, records[k]);
      forall i | 0 <= i < k ensures ParseRecord(schema, records[i]).Some? {
        assert parsed[i].Some?;
      }
    }
  }

  /** A first record with more or fewer fields than the schema's columns plus the label (a
      leading id column, say) fails the parse at row 1. */
  lemma MisshapenFirstRecord(schema: seq<Feature>, records: seq<string>)
    requires |records| > 0 && |C45.Fields(records[0])| != |schema| + 1
    ensures ParseRecords(schema, records) == Err(RowParseError(1))
  {
    RecordLayout(schema, C45.Fields(records[0]));
    assert ParseRecord(schema, records[0]).None?;
  }

  /** The rows are the records' examples, in order, numbered from 1. */
  predicate NumberedFrom(schema: seq<Feature>, records: seq<string>, rows: seq<Row>) {
    && |rows| == |records|
    && forall i :: 0 <= i < |rows| ==>
      rows[i].index == i + 1 && ParseRecord(schema, records[i]) == Some(rows[i].example)
  }

  /** The error names the (1-based) row of a record that does not parse, and every record before
      it parses. */
  predicate FirstFailure(schema: seq<Feature>, records: seq<string>, error: Error) {
    && error.RowParseError?
    && 1 <= error.row <= |records|
    && ParseRecord(schema, records[error.row - 1]).None?
    && forall i :: 0 <= i < error.row - 1 ==> ParseRecord(schema, records[i]).Some?
  }

  /** The result of `parse_c45`: the schema, the feature matrix and the label vector. */
  datatype Dataset = Dataset(schema: seq<Feature>, x: seq<seq<Option<real>>>, y: seq<int>)

  /** A dataset whose matrix and label vector line up: one label per row, every row as wide as
      the schema, every label 0 or 1. */
  predicate Consistent(d: Dataset) {
    && |d.x| == |d.y|
    && forall i :: 0 <= i < |d.x| ==> Shaped(d.schema, Example(d.x[i], d.y[i]))
  }

  /** Splits numbered rows into the feature matrix and the label vector, keeping row order. */
  function ToDataset(schema: seq<Feature>, rows: seq<Row>): (d: Dataset)
    ensures d.schema == schema && |d.x| == |rows| && |d.y| == |rows|
    ensures forall i :: 0 <= i < |rows| ==> Example(d.x[i], d.y[i]) == rows[i].example
  {
    Dataset(schema,
            seq(|rows|, i requires 0 <= i < |rows| => rows[i].example.cells),
            seq(|rows|, i requires 0 <= i < |rows| => rows[i].example.classLabel))
  }

  /** The dataset holds the numbered rows in order: row `i` (numbered `i + 1`) is matrix row `i`
      with label `i`. */
  predicate Tabulates(rows: seq<Row>, d: Dataset) {
    && |rows| == |d.x| == |d.y|
    && forall i :: 0 <= i < |rows| ==> rows[i] == Row(i + 1, Example(d.x[i], d.y[i]))
  }

  /** Parses a schema file and a data file given as their lines. */
  function Load(schemaLines: seq<string>, dataLines: seq<string>): (r: Result<Dataset>)
    ensures r.Ok? ==> Consistent(r.value)
    ensures r.Ok? <==>
      C45.ParseSchema(schemaLines).Ok? && ParseData(C45.ParseSchema(schemaLines).value, dataLines).Ok?
    ensures r.Ok? ==>
      && C45.ParseSchema(schemaLines) == Ok(r.value.schema)
      && Tabulates(ParseData(r.value.schema, dataLines).value, r.value)
    ensures r.Err? ==>
      r.error == (if C45.ParseSchema(schemaLines).Err? then C45.ParseSchema(schemaLines).error
                  else ParseData(C45.ParseSchema(schemaLines).value, dataLines).error)
  {
    var schema :- C45.ParseSchema(schemaLines);
    var rows :- ParseData(schema, dataLines);
    var d := ToDataset(schema, rows);
    assert Tabulates(rows, d);
    assert Consistent(d) by {
      var records := C45.Records(dataLines);
      forall i | 0 <= i < |d.x| ensures Shaped(schema, Example(d.x[i], d.y[i])) {
        assert ParseRecord(schema, records[i]) == Some(rows[i].example);
      }
    }
    Ok(d)
  }

  /** `parse_c45`: find `<name>.names` and `<name>.data` in the walk, then parse the schema and
      the records under it. Files are given as their lines. */
  function ParseC45(name: string, walk: seq<string>, files: map<string, seq<string>>): (r: Result<Dataset>)
    ensures r.Ok? ==> Consistent(r.value)
    ensures
      var np, dp := C45.FindFile(name + ".names", walk), C45.FindFile(name + ".data", walk);
      r.Ok? <==>
        np.Ok? && dp.Ok? && np.value in files && dp.value in files
        && Load(files[np.value], files[dp.value]).Ok?
    ensures
      var np, dp := C45.FindFile(name + ".names", walk), C45.FindFile(name + ".data", walk);
      np.Ok? && dp.Ok? && np.value in files && dp.value in files ==> r == Load(files[np.value], files[dp.value])
    ensures C45.FindFile(name + ".names", walk).Err? ==> r == Err(FileNotFound(name + ".names"))
    ensures C45.FindFile(name + ".names", walk).Ok? && C45.FindFile(name + ".data", walk).Err? ==>
      r == Err(FileNotFound(name + ".data"))
    ensures
      var np, dp := C45.FindFile(name + ".names", walk), C45.FindFile(name + ".data", walk);
      np.Ok? && dp.Ok? && (np.value !in files || dp.value !in files) ==>
        r == Err(FileNotFound(if np.value !in files then np.value else dp.value))
  {
    var namesPath :- C45.FindFile(name + ".names", walk);
    var dataPath :- C45.FindFile(name + ".data", walk);
    if namesPath !in files then Err(FileNotFound(namesPath))
    else if dataPath !in files then Err(FileNotFound(dataPath))
    else Load(files[namesPath], files[dataPath])
  }
}

=== FILE: feature_order.dfy ===
/** A total order on features, so that any list of features can be sorted. The key is this
    model's own choice: by kind (BINARY, NOMINAL, CONTINUOUS), then by name, then by the list
    of labels. The Python class's comparison need only be some fixed total order. */
module FeatureOrder {
  import opened Features

  function TypeRank(t: FeatureType): nat {
    match t
    case Binary => 0
    case Nominal => 1
    case Continuous => 2
  }

  /** Lexicographic order on strings by code point, as Python compares `str`. */
  predicate StrLe(a: string, b: string)
    decreases |a|
  {
    |a| == 0 || (|b| > 0 && (a[0] < b[0] || (a[0] == b[0] && StrLe(a[1..], b[1..]))))
  }

  predicate StrLt(a: string, b: string) {
    StrLe(a, b) && a != b
  }

  /** Lexicographic order on label lists, element by element with StrLe. */
  predicate LabelsLe(a: seq<string>, b: seq<string>)
    decreases |a|
  {
    |a| == 0 || (|b| > 0 && (StrLt(a[0], b[0]) || (a[0] == b[0] && LabelsLe(a[1..], b[1..]))))
  }

  /** The order this model gives features for `sorted()`: kind, then name, then labels. Only
      its being a total order is what `sorted()` relies on; the key itself is chosen here. */
  predicate FeatureLe(a: Feature, b: Feature) {
    TypeRank(a.ftype) < TypeRank(b.ftype)
    || (a.ftype == b.ftype
        && (StrLt(a.name, b.name) || (a.name == b.name && LabelsLe(a.values, b.values))))
  }

  lemma {:induction false} StrLeReflexive(a: string)
    ensures StrLe(a, a)
    decreases |a|
  {
    if |a| > 0 { StrLeReflexive(a[1..]); }
  }

  lemma {:induction false} StrLeAntisymmetric(a: string, b: string)
    requires StrLe(a, b) && StrLe(b, a)
    ensures a == b
    decreases |a|
  {
    if |a| > 0 {
      StrLeAntisymmetric(a[1..], b[1..]);
      assert a == [a[0]] + a[1..] && b == [b[0]] + b[1..];
    }
  }

  lemma {:induction false} StrLeTransitive(a: string, b: string, c: string)
    requires StrLe(a, b) && StrLe(b, c)
    ensures StrLe(a, c)
    decreases |a|
  {
    if |a| > 0 && a[0] == b[0] && b[0] == c[0] {
      StrLeTransitive(a[1..], b[1..], c[1..]);
    }
  }

  lemma {:induction false} StrLeTotal(a: string, b: string)
    ensures StrLe(a, b) || StrLe(b, a)
    decreases |a|
  {
    if |a| > 0 && |b| > 0 && a[0] == b[0] {
      StrLeTotal(a[1..], b[1..]);
    }
  }

  lemma {:induction false} LabelsLeReflexive(a: seq<string>)
    ensures LabelsLe(a, a)
    decreases |a|
  {
    if |a| > 0 { LabelsLeReflexive(a[1..]); }
  }

  lemma {:induction false} LabelsLeAntisymmetric(a: seq<string>, b: seq<string>)
    requires LabelsLe(a, b) && LabelsLe(b, a)
    ensures a == b
    decreases |a|
  {
    if |a| > 0 {
      if StrLt(a[0], b[0]) && StrLt(b[0], a[0]) {
        StrLeAntisymmetric(a[0], b[0]);
      }
      if a[0] == b[0] {
        LabelsLeAntisymmetric(a[1..], b[1..]);
        assert a == [a[0]] + a[1..] && b == [b[0]] + b[1..];
      }
    }
  }

  lemma {:induction false} LabelsLeTransitive(a: seq<string>, b: seq<string>, c: seq<string>)
    requires LabelsLe(a, b) && LabelsLe(b, c)
    ensures LabelsLe(a, c)
    decreases |a|
  {
    if |a| > 0 {
      if a[0] == b[0] && b[0] == c[0] {
        LabelsLeTransitive(a[1..], b[1..], c[1..]);
      } else {
        StrLeReflexive(a[0]);
        StrLeReflexive(b[0]);
        StrLeTransitive(a[0], b[0], c[0]);
        if a[0] == c[0] {
          StrLeAntisymmetric(a[0], b[0]);
        }
      }
    }
  }

  lemma {:induction false} LabelsLeTotal(a: seq<string>, b: seq<string>)
    ensures LabelsLe(a, b) || LabelsLe(b, a)
    decreases |a|
  {
    if |a| > 0 && |b| > 0 {
      StrLeTotal(a[0], b[0]);
      if a[0] == b[0] {
        LabelsLeTotal(a[1..], b[1..]);
      }
    }
  }

  /** FeatureLe is a total order: reflexive, antisymmetric, transitive and total. */
  lemma FeatureLeTotalOrder(a: Feature, b: Feature, c: Feature)
    ensures FeatureLe(a, a)
    ensures FeatureLe(a, b) || FeatureLe(b, a)
    ensures FeatureLe(a, b) && FeatureLe(b, a) ==> a == b
    ensures FeatureLe(a, b) && FeatureLe(b, c) ==> FeatureLe(a, c)
  {
    LabelsLeReflexive(a.values);
    StrLeReflexive(a.name);
    StrLeReflexive(b.name);
    StrLeTotal(a.name, b.name);
    LabelsLeTotal(a.values, b.values);
    if FeatureLe(a, b) && FeatureLe(b, a) {
      if a.name != b.name {
        StrLeAntisymmetric(a.name, b.name);
      }
      LabelsLeAntisymmetric(a.values, b.values);
    }
    if FeatureLe(a, b) && FeatureLe(b, c) {
      if a.ftype == b.ftype && b.ftype == c.ftype {
        StrLeTransitive(a.name, b.name, c.name);
        if a.name == c.name && a.name != b.name {
          StrLeAntisymmetric(a.name, b.name);
        }
        if a.name == b.name && b.name == c.name {
          LabelsLeTransitive(a.values, b.values, c.values);
        }
      }
    }
  }

  predicate Sorted(s: seq<Feature>) {
    forall i, j :: 0 <= i < j < |s| ==> FeatureLe(s[i], s[j])
  }

  /** Inserts `f` into a sorted list, keeping it sorted. */
  function Insert(f: Feature, s: seq<Feature>): (r: seq<Feature>)
    requires Sorted(s)
    ensures Sorted(r)
    ensures multiset(r) == multiset(s) + multiset{f}
    ensures r[0] == f || (|s| > 0 && r[0] == s[0])
  {
    if |s| == 0 then [f]
    else if FeatureLe(f, s[0]) then
      SortedCons(f, s);
      [f] + s
    else
      var rest := Insert(f, s[1..]);
      FeatureLeTotalOrder(f, s[0], f);
      assert FeatureLe(s[0], rest[0]) by {
        if rest[0] != f {
          assert rest[0] == s[1];
        }
      }
      SortedCons(s[0], rest);
      assert s == [s[0]] + s[1..];
      [s[0]] + rest
  }

  /** A feature that precedes the head of a sorted list may be put in front of it. */
  lemma SortedCons(f: Feature, s: seq<Feature>)
    requires Sorted(s) && (|s| == 0 || FeatureLe(f, s[0]))
    ensures Sorted([f] + s)
  {
    var r := [f] + s;
    forall i, j | 0 <= i < j < |r| ensures FeatureLe(r[i], r[j]) {
      if i == 0 {
        FeatureLeTotalOrder(f, s[0], s[j - 1]);
      } else {
        assert r[i] == s[i - 1] && r[j] == s[j - 1];
      }
    }
  }

  /** Python's `sorted()` over features: insertion sort by FeatureLe. */
  function SortFeatures(fs: seq<Feature>): (r: seq<Feature>)
    ensures Sorted(r)
    ensures multiset(r) == multiset(fs)
  {
    if |fs| == 0 then []
    else
      assert fs == [fs[0]] + fs[1..];
      Insert(fs[0], SortFeatures(fs[1..]))
  }

  /** The head of a sorted list precedes every feature in it. */
  lemma SortedHeadLeast(a: seq<Feature>, x: Feature)
    requires Sorted(a) && x in multiset(a)
    ensures |a| > 0 && FeatureLe(a[0], x)
  {
    var k :| 0 <= k < |a| && a[k] == x;
    if k == 0 {
      FeatureLeTotalOrder(x, x, x);
    }
  }

  /** Two sorted arrangements of the same features are identical. */
  lemma {:induction false} SortedUnique(a: seq<Feature>, b: seq<Feature>)
    requires Sorted(a) && Sorted(b) && multiset(a) == multiset(b)
    ensures a == b
    decreases |a|
  {
    if |a| == 0 {
      assert |b| == |multiset(b)| == 0;
    } else {
      SortedSameHead(a, b);
      SameTail(a, b);
      SortedUnique(a[1..], b[1..]);
      assert a == [a[0]] + a[1..] && b == [b[0]] + b[1..];
    }
  }

  /** Two sorted arrangements of the same non-empty multiset start with the same feature. */
  lemma SortedSameHead(a: seq<Feature>, b: seq<Feature>)
    requires Sorted(a) && Sorted(b) && multiset(a) == multiset(b) && |a| > 0
    ensures |b| > 0 && a[0] == b[0]
  {
    assert a[0] in multiset(a);
    SortedHeadLeast(b, a[0]);
    SortedHeadLeast(a, b[0]);
    FeatureLeTotalOrder(a[0], b[0], a[0]);
  }

  /** Removing the same head from two arrangements of one multiset leaves equal multisets. */
  lemma SameTail(a: seq<Feature>, b: seq<Feature>)
    requires multiset(a) == multiset(b) && |a| > 0 && |b| > 0 && a[0] == b[0]
    ensures multiset(a[1..]) == multiset(b[1..])
  {
    assert a == [a[0]] + a[1..] && b == [b[0]] + b[1..];
    assert multiset(a[1..]) == multiset(a) - multiset{a[0]};
    assert multiset(b[1..]) == multiset(b) - multiset{b[0]};
  }

  /** Sorting never depends on how the input was arranged. */
  lemma SortDeterministic(xs: seq<Feature>, ys: seq<Feature>)
    requires multiset(xs) == multiset(ys)
    ensures SortFeatures(xs) == SortFeatures(ys)
  {
    SortedUnique(SortFeatures(xs), SortFeatures(ys));
  }
}

=== FILE: features.dfy ===
/** The typed feature model: the three feature kinds, the `Feature` entity with its
    construction guards, and the canonical numeric encoding of each kind with its inverse. */
module Features {
  import opened Outcomes
  import Text

  /** The closed set of feature kinds. */
  datatype FeatureType = Binary | Nominal | Continuous

  /** The upper-case name of each kind, as it is written in a `Feature(...)` call. */
  function TypeName(t: FeatureType): string {
    match t
    case Binary => "BINARY"
    case Nominal => "NOMINAL"
    case Continuous => "CONTINUOUS"
  }

  /** Reads a kind from its name, ignoring ASCII case. */
  function ParseFeatureType(name: string): (r: Result<FeatureType>)
    ensures forall t :: r == Ok(t) <==> Text.Upper(name) == TypeName(t)
    ensures r.Err? ==> r.error == InvalidFeatureType(name)
  {
    var key := Text.Upper(name);
    if key == "BINARY" then Ok(Binary)
    else if key == "NOMINAL" then Ok(Nominal)
    else if key == "CONTINUOUS" then Ok(Continuous)
    else Err(InvalidFeatureType(name))
  }

  /** A kind's own name reads back as that kind. */
  lemma ParseTypeName(t: FeatureType)
    ensures ParseFeatureType(TypeName(t)) == Ok(t)
  {
    assert Text.Upper(TypeName(t)) == TypeName(t);
  }

  /** The `ftype` argument of the constructor: the kind itself or its name. */
  datatype TypeSpec = Given(kind: FeatureType) | Named(name: string)

  function ResolveType(spec: TypeSpec): Result<FeatureType> {
    match spec
    case Given(t) => Ok(t)
    case Named(n) => ParseFeatureType(n)
  }

  /** One column of a dataset. `values` lists the labels of a NOMINAL feature in declaration
      order and is empty for the other kinds. */
  datatype Feature = Feature(name: string, ftype: FeatureType, values: seq<string>)

  predicate Distinct(vs: seq<string>) {
    forall i, j :: 0 <= i < j < |vs| ==> vs[i] != vs[j]
  }

  /** The construction invariant: labels exist exactly for NOMINAL features, and are unique. */
  predicate Valid(f: Feature) {
    (f.ftype == Nominal <==> |f.values| > 0) && Distinct(f.values)
  }

  /** Whether the optional `values` argument carries any label. */
  predicate Present(values: Option<seq<string>>) {
    values.Some? && |values.value| > 0
  }

  /** The constructor `Feature(name, ftype, values=None)`. */
  function NewFeature(name: string, ftype: TypeSpec, values: Option<seq<string>>): (r: Result<Feature>)
    ensures r.Ok? ==> Valid(r.value) && r.value.name == name && ResolveType(ftype) == Ok(r.value.ftype)
    ensures r.Ok? && r.value.ftype == Nominal ==> values == Some(r.value.values)
    ensures r.Ok? <==>
      ResolveType(ftype).Ok? && (ResolveType(ftype).value == Nominal <==> Present(values))
      && (Present(values) ==> Distinct(values.value))
    ensures ResolveType(ftype).Err? ==> r == Err(ResolveType(ftype).error)
    ensures ResolveType(ftype) == Ok(Nominal) && !Present(values) ==> r == Err(MissingNominalValues)
    ensures ResolveType(ftype).Ok? && ResolveType(ftype).value != Nominal && Present(values) ==>
      r == Err(UnexpectedValues)
  {
    var t :- ResolveType(ftype);
    if t == Nominal then
      if !Present(values) then Err(MissingNominalValues)
      else if !Distinct(values.value) then Err(DuplicateNominalValue)
      else Ok(Feature(name, Nominal, values.value))
    else if Present(values) then Err(UnexpectedValues)
    else Ok(Feature(name, t, []))
  }

  /** Naming the kind by its string gives the same feature as passing the kind. */
  lemma StringTypeNormalises(name: string, t: FeatureType, values: Option<seq<string>>)
    ensures NewFeature(name, Named(TypeName(t)), values) == NewFeature(name, Given(t), values)
    ensures (t == Nominal <==> Present(values)) && (values.Some? ==> Distinct(values.value)) ==>
      NewFeature(name, Named(TypeName(t)), values).Ok?
    ensures NewFeature(name, Named(TypeName(t)), values).Ok? ==>
      NewFeature(name, Named(TypeName(t)), values).value.ftype == t
  {
    ParseTypeName(t);
  }

  /** A NOMINAL feature without labels, and a BINARY or CONTINUOUS one with labels, are refused. */
  lemma ValuesGuard(name: string, labels: seq<string>)
    requires |labels| > 0
    ensures NewFeature(name, Given(Nominal), None) == Err(MissingNominalValues)
    ensures NewFeature(name, Given(Nominal), Some([])) == Err(MissingNominalValues)
    ensures NewFeature(name, Given(Binary), Some(labels)) == Err(UnexpectedValues)
    ensures NewFeature(name, Given(Continuous), Some(labels)) == Err(UnexpectedValues)
  {
  }

  /** The position of the first occurrence of `s` among `vs`. */
  function IndexOf(vs: seq<string>, s: string): (r: Option<nat>)
    ensures r.None? <==> s !in vs
    ensures r.Some? ==> r.value < |vs| && vs[r.value] == s && s !in vs[..r.value]
  {
    if |vs| == 0 then None
    else if vs[0] == s then Some(0)
    else
      match IndexOf(vs[1..], s)
      case None => None
      case Some(k) =>
        assert vs[..k + 1] == [vs[0]] + vs[1..][..k];
        Some(k + 1)
  }

  /** In a list of unique labels every label is found at its own position. */
  lemma IndexOfDistinct(vs: seq<string>, i: nat)
    requires Distinct(vs) && i < |vs|
    ensures IndexOf(vs, vs[i]) == Some(i)
  {
  }

  /** A native value handed to `to_float`: a boolean, an integer, a float, a label string,
      or a nominal member (its label name together with its 1-based ordinal). */
  datatype Native =
    | Bool(b: bool)
    | Int(k: int)
    | Num(x: real)
    | Label(s: string)
    | Member(memberName: string, ordinal: int)

  /** The member standing for the `i`-th declared label (0-based `i`, 1-based ordinal). */
  function MemberAt(f: Feature, i: nat): Native
    requires i < |f.values|
  {
    Member(f.values[i], i + 1)
  }

  predicate IsWhole(x: real) {
    x == x.Floor as real
  }

  /** Whether `x` is the ordinal of one of the feature's labels. */
  predicate IsOrdinal(f: Feature, x: real) {
    IsWhole(x) && 1 <= x.Floor <= |f.values|
  }

  /** The values the canonical encoding of a feature can take. */
  predicate InRange(f: Feature, x: real) {
    match f.ftype
    case Binary => x == 0.0 || x == 1.0
    case Nominal => IsOrdinal(f, x)
    case Continuous => true
  }

  /** The native form `from_float` produces for each kind. */
  predicate Canonical(f: Feature, v: Native) {
    match f.ftype
    case Binary => v.Bool?
    case Nominal => v.Member? && 1 <= v.ordinal <= |f.values| && f.values[v.ordinal - 1] == v.memberName
    case Continuous => v.Num?
  }

  /** The native values each kind accepts: BINARY takes booleans and 0 / 1, NOMINAL takes a
      declared label, an in-range ordinal or a member that matches its position, CONTINUOUS
      takes any number and any label written as a number. */
  predicate Encodable(f: Feature, v: Native) {
    match f.ftype
    case Binary => v.Bool? || (v.Int? && (v.k == 0 || v.k == 1)) || (v.Num? && (v.x == 0.0 || v.x == 1.0))
    case Nominal =>
      (v.Label? && v.s in f.values) || (v.Int? && 1 <= v.k <= |f.values|) || (v.Num? && IsOrdinal(f, v.x))
      || (v.Member? && 1 <= v.ordinal <= |f.values| && f.values[v.ordinal - 1] == v.memberName)
    case Continuous => v.Bool? || v.Int? || v.Num? || (v.Label? && Text.ParseNumber(v.s).Some?)
  }

  /** The error each kind reports for a value it does not accept. */
  function RejectionOf(t: FeatureType): (e: Error)
    ensures e.UnknownNominalValue? <==> t == Nominal
    ensures e.InvalidBinaryEncoding? <==> t == Binary
    ensures e.InvalidContinuousValue? <==> t == Continuous
  {
    match t
    case Binary => InvalidBinaryEncoding
    case Nominal => UnknownNominalValue
    case Continuous => InvalidContinuousValue
  }

  /** `to_float`: the canonical numeric encoding of a native value. */
  function ToFloat(f: Feature, v: Native): (r: Result<real>)
    ensures r.Ok? <==> Encodable(f, v)
    ensures r.Ok? ==> InRange(f, r.value)
    ensures r.Err? ==> r.error == RejectionOf(f.ftype)
  {
    match f.ftype
    case Binary => (
      match v
      case Bool(b) => Ok(if b then 1.0 else 0.0)
      case Int(k) => if k == 0 || k == 1 then Ok(k as real) else Err(InvalidBinaryEncoding)
      case Num(x) => if x == 0.0 || x == 1.0 then Ok(x) else Err(InvalidBinaryEncoding)
      case _ => Err(InvalidBinaryEncoding))
    case Nominal => (
      match v
      case Label(s) => (
        match IndexOf(f.values, s)
        case Some(i) => Ok((i + 1) as real)
        case None => Err(UnknownNominalValue))
      case Int(k) => if 1 <= k <= |f.values| then Ok(k as real) else Err(UnknownNominalValue)
      case Num(x) => if IsOrdinal(f, x) then Ok(x) else Err(UnknownNominalValue)
      case Member(s, k) =>
        if 1 <= k <= |f.values| && f.values[k - 1] == s then Ok(k as real) else Err(UnknownNominalValue)
      case Bool(_) => Err(UnknownNominalValue))
    case Continuous => (
      match v
      case Num(x) => Ok(x)
      case Int(k) => Ok(k as real)
      case Bool(b) => Ok(if b then 1.0 else 0.0)
      case Label(s) => (
        match Text.ParseNumber(s)
        case Some(x) => Ok(x)
        case None => Err(InvalidContinuousValue))
      case Member(_, _) => Err(InvalidContinuousValue))
  }

  /** `from_float`: the native value a canonical encoding stands for. */
  function FromFloat(f: Feature, x: real): (r: Result<Native>)
    ensures r.Ok? <==> InRange(f, x)
    ensures r.Ok? ==> Canonical(f, r.value) && ToFloat(f, r.value) == Ok(x)
    ensures r.Err? ==> r.error == RejectionOf(f.ftype)
  {
    match f.ftype
    case Binary =>
      if x == 0.0 then Ok(Bool(false))
      else if x == 1.0 then Ok(Bool(true))
      else Err(InvalidBinaryEncoding)
    case Nominal =>
      if IsOrdinal(f, x) then Ok(Member(f.values[x.Floor - 1], x.Floor)) else Err(UnknownNominalValue)
    case Continuous => Ok(Num(x))
  }

  /** Decoding an encoding and encoding it again gives the same number back. */
  lemma DecodeEncode(f: Feature, x: real)
    requires FromFloat(f, x).Ok?
    ensures ToFloat(f, FromFloat(f, x).value) == Ok(x)
  {
  }

  /** Decoding an encoded value gives a native value with the same encoding, and gives back
      the very value when it was already in canonical form. */
  lemma EncodeDecode(f: Feature, v: Native)
    requires ToFloat(f, v).Ok?
    ensures FromFloat(f, ToFloat(f, v).value).Ok?
    ensures ToFloat(f, FromFloat(f, ToFloat(f, v).value).value) == ToFloat(f, v)
    ensures Canonical(f, v) ==> FromFloat(f, ToFloat(f, v).value) == Ok(v)
  {
    DecodeEncode(f, ToFloat(f, v).value);
  }

  /** BINARY: 0, 0.0 and False encode as 0, 1, 1.0 and True as 1, and 0 / 1 decode to False /
      True. */
  lemma BinaryEncoding(f: Feature, b: bool)
    requires f.ftype == Binary
    ensures ToFloat(f, Bool(b)) == ToFloat(f, Int(if b then 1 else 0)) == Ok(if b then 1.0 else 0.0)
    ensures ToFloat(f, Num(if b then 1.0 else 0.0)) == Ok(if b then 1.0 else 0.0)
    ensures FromFloat(f, if b then 1.0 else 0.0) == Ok(Bool(b))
  {
  }

  /** NOMINAL: a label, its member and its ordinal (as an integer or as a float) all encode as
      the label's 1-based position, and that ordinal decodes to the member. */
  lemma NominalFormsAgree(f: Feature, i: nat)
    requires Valid(f) && f.ftype == Nominal && i < |f.values|
    ensures ToFloat(f, Label(f.values[i])) == Ok((i + 1) as real)
    ensures ToFloat(f, MemberAt(f, i)) == Ok((i + 1) as real)
    ensures ToFloat(f, Int(i + 1)) == Ok((i + 1) as real)
    ensures ToFloat(f, Num((i + 1) as real)) == Ok((i + 1) as real)
    ensures FromFloat(f, (i + 1) as real) == Ok(MemberAt(f, i))
  {
    IndexOfDistinct(f.values, i);
  }

  /** CONTINUOUS: both directions are the identity. */
  lemma ContinuousIdentity(f: Feature, x: real)
    requires f.ftype == Continuous
    ensures ToFloat(f, Num(x)) == Ok(x)
    ensures FromFloat(f, x) == Ok(Num(x))
  {
  }
}

=== FILE: fixture.dfy ===
/** The example dataset of the test suite: its five-column schema, records of its `.data`
    file, and the file pair found in a directory walk.

    Several lemmas take the example's tokens, cells, lines or walk as parameters that a
    `requires x == <literal>` pins down completely. This is deliberate: it keeps the long
    literals out of each proof obligation, which then stays small. */
module Fixture {
  import opened Outcomes
  import opened Features
  import Text
  import C45
  import C45Data

  /** The schema `example.names` declares. */
  function ExampleSchema(): seq<Feature> {
    [ Feature("f1", Binary, []),
      Feature("f2", Nominal, ["Monday", "Tuesday", "Wednesday", "Thursday", "Friday"]),
      Feature("f3", Continuous, []),
      Feature("f4", Nominal, ["A12", "A13", "A14"]),
      Feature("f5", Nominal, ["1", "2", "3"]) ]
  }

  predicate IsAlnum(c: char) {
    ('a' <= c <= 'z') || ('A' <= c <= 'Z') || ('0' <= c <= '9')
  }

  /** A non-empty run of letters and digits is a declarable token. */
  lemma AlnumToken(t: string)
    requires t != [] && forall i :: 0 <= i < |t| ==> IsAlnum(t[i])
    ensures C45.IsToken(t)
  {
  }

  lemma DeclarableNumeric()
    ensures C45.Declarable(ExampleSchema()[0]) && C45.Declarable(ExampleSchema()[2])
  {
    AlnumToken("f1");
    AlnumToken("f3");
  }

  lemma DeclarableDays()
    ensures C45.Declarable(ExampleSchema()[1])
  {
    var f := ExampleSchema()[1];
    AlnumToken("f2");
    AlnumToken("Monday"); AlnumToken("Tuesday"); AlnumToken("Wednesday");
    AlnumToken("Thursday"); AlnumToken("Friday");
    assert Distinct(f.values);
  }

  lemma DeclarableCodes()
    ensures C45.Declarable(ExampleSchema()[3])
  {
    var f := ExampleSchema()[3];
    AlnumToken("f4");
    AlnumToken("A12"); AlnumToken("A13"); AlnumToken("A14");
    assert Distinct(f.values);
  }

  lemma DeclarableLevels()
    ensures C45.Declarable(ExampleSchema()[4])
  {
    var f := ExampleSchema()[4];
    AlnumToken("f5");
    AlnumToken("1"); AlnumToken("2"); AlnumToken("3");
    assert Distinct(f.values);
  }

  /** Every feature of the example schema can be declared in a `.names` file, and the names
      are distinct. */
  lemma ExampleSchemaDeclarable()
    ensures forall i :: 0 <= i < |ExampleSchema()| ==> C45.Declarable(ExampleSchema()[i])
    ensures C45.DistinctNames(ExampleSchema())
  {
    DeclarableNumeric();
    DeclarableDays();
    DeclarableCodes();
    DeclarableLevels();
  }

  /** `example.names` written with any class line parses to the example schema. */
  lemma ExampleSchemaParses(classLine: string)
    requires C45.IsRecord(classLine)
    ensures C45.ParseSchema(C45.RenderSchema(classLine, ExampleSchema())) == Ok(ExampleSchema())
  {
    ExampleSchemaDeclarable();
    C45.SchemaRoundTrip(classLine, ExampleSchema());
  }

  // ---------------------------------------------------------------- records of example.data

  /** A non-empty field made of letters, digits, `.` and `?`, not ending in `.`, reads back
      unchanged and can be written into a record. */
  lemma PlainField(t: string)
    requires t != [] && t[|t| - 1] != '.'
    requires forall i :: 0 <= i < |t| ==> IsAlnum(t[i]) || t[i] == '.' || t[i] == '?'
    ensures C45.IsField(t) && C45.IsToken(t)
  {
  }

  /** An unsigned number with a decimal point reads as its whole part plus its scaled fraction. */
  lemma PointNumber(s: string, whole: string, frac: string, x: real)
    requires s == whole + "." + frac
    requires |whole| > 0 && Text.AllDigits(whole) && Text.AllDigits(frac)
    requires x == Text.PointValue(whole, frac)
    ensures Text.ParseNumber(s) == Some(x)
  {
    Text.ParseUnsignedPoint(whole, frac);
    assert s[0] == whole[0] && Text.IsDigit(whole[0]);
  }

  lemma NumberWhole()
    ensures Text.ParseNumber("0") == Some(0.0) && Text.ParseNumber("1") == Some(1.0)
  {
    Text.ParseNumberShowNat(0);
    Text.ParseNumberShowNat(1);
  }

  lemma DigitsOfFraction()
    ensures Text.DigitsValue("94") == 94 && Text.DigitsValue("1") == 1
    ensures Text.Pow10(2) == 100 && Text.Pow10(1) == 10
  {
    assert "94"[..1] == "9";
  }

  lemma NumberPoints()
    ensures Text.ParseNumber("0.94") == Some(0.94)
    ensures Text.ParseNumber("1.1") == Some(1.1)
  {
    DigitsOfFraction();
    PointNumber("0.94", "0", "94", 0.94);
    PointNumber("1.1", "1", "1", 1.1);
  }

  /** Five cell facts, one per column of the example schema, as one quantified fact. */
  lemma FiveCells(schema: seq<Feature>, tokens: seq<string>, cells: seq<Option<real>>)
    requires |schema| == 5 && |tokens| == 6 && |cells| == 5
    requires C45Data.ParseCell(schema[0], tokens[0]) == Ok(cells[0])
    requires C45Data.ParseCell(schema[1], tokens[1]) == Ok(cells[1])
    requires C45Data.ParseCell(schema[2], tokens[2]) == Ok(cells[2])
    requires C45Data.ParseCell(schema[3], tokens[3]) == Ok(cells[3])
    requires C45Data.ParseCell(schema[4], tokens[4]) == Ok(cells[4])
    ensures forall i :: 0 <= i < |schema| ==> C45Data.ParseCell(schema[i], tokens[i]) == Ok(cells[i])
  {
  }

  /** A NOMINAL field holding the label at position `k` reads as the ordinal k + 1. */
  lemma LabelCell(f: Feature, token: string, k: nat)
    requires f.ftype == Nominal && !C45Data.IsMissing(token) && IndexOf(f.values, token) == Some(k)
    ensures C45Data.ParseCell(f, token) == Ok(Some((k + 1) as real))
  {
  }

  /** A BINARY or CONTINUOUS field holding an admissible number reads as that number. */
  lemma NumberCell(f: Feature, token: string, x: real)
    requires f.ftype != Nominal && !C45Data.IsMissing(token) && Text.ParseNumber(token) == Some(x)
    requires InRange(f, x)
    ensures C45Data.ParseCell(f, token) == Ok(Some(x))
  {
  }

  /** A label's position is that of its first occurrence. */
  lemma PositionAt(vs: seq<string>, s: string, k: nat)
    requires k < |vs| && vs[k] == s && forall j :: 0 <= j < k ==> vs[j] != s
    ensures IndexOf(vs, s) == Some(k)
  {
    assert vs[k] == s;
  }

  /** The cells of the example records, column by column. */
  lemma BinaryCell(token: string, c: Option<real>)
    requires (token == "0" && c == Some(0.0)) || (token == "?" && c == None)
    ensures C45Data.ParseCell(ExampleSchema()[0], token) == Ok(c)
  {
    if token == "0" {
      NumberWhole();
      NumberCell(ExampleSchema()[0], "0", 0.0);
    }
  }

  lemma DayCell(token: string, x: real)
    requires (token == "Monday" && x == 1.0) || (token == "Thursday" && x == 4.0)
    ensures C45Data.ParseCell(ExampleSchema()[1], token) == Ok(Some(x))
  {
    var k: nat := (x as int) - 1;
    PositionAt(ExampleSchema()[1].values, token, k);
    LabelCell(ExampleSchema()[1], token, k);
  }

  lemma ContinuousCell(token: string, x: real)
    requires (token == "0.94" && x == 0.94) || (token == "1.1" && x == 1.1)
    ensures C45Data.ParseCell(ExampleSchema()[2], token) == Ok(Some(x))
  {
    NumberPoints();
    NumberCell(ExampleSchema()[2], token, x);
  }

  lemma CodeCell(k: nat, token: string, x: real)
    requires || (k == 3 && token == "A12" && x == 1.0) || (k == 3 && token == "A14" && x == 3.0)
             || (k == 4 && token == "1" && x == 1.0) || (k == 4 && token == "2" && x == 2.0)
    ensures C45Data.ParseCell(ExampleSchema()[k], token) == Ok(Some(x))
  {
    var p: nat := (x as int) - 1;
    PositionAt(ExampleSchema()[k].values, token, p);
    LabelCell(ExampleSchema()[k], token, p);
  }

  /** The cells of the first record. */
  lemma FirstCells(schema: seq<Feature>, tokens: seq<string>, cells: seq<Option<real>>)
    requires schema == ExampleSchema()
    requires tokens == ["0", "Monday", "0.94", "A12", "1", "0"]
    requires cells == [Some(0.0), Some(1.0), Some(0.94), Some(1.0), Some(1.0)]
    ensures forall i :: 0 <= i < |schema| ==> C45Data.ParseCell(schema[i], tokens[i]) == Ok(cells[i])
  {
    BinaryCell("0", Some(0.0));
    DayCell("Monday", 1.0);
    ContinuousCell("0.94", 0.94);
    CodeCell(3, "A12", 1.0);
    CodeCell(4, "1", 1.0);
    FiveCells(schema, tokens, cells);
  }

  /** The first record of `example.data` gives the first row of the expected matrix.
      (Its parameters are pinned to literals by its requires, to keep the proof small.) */
  lemma FirstRecord(tokens: seq<string>, cells: seq<Option<real>>)
    requires tokens == ["0", "Monday", "0.94", "A12", "1", "0"]
    requires cells == [Some(0.0), Some(1.0), Some(0.94), Some(1.0), Some(1.0)]
    ensures C45Data.ParseRecord(ExampleSchema(), Text.Join(tokens, ',')) == Some(C45Data.Example(cells, 0))
  {
    forall i | 0 <= i < |tokens| ensures C45.IsField(tokens[i]) {
      PlainField(tokens[i]);
    }
    FirstCells(ExampleSchema(), tokens, cells);
    NumberWhole();
    C45Data.RecordOfFields(ExampleSchema(), tokens, C45Data.Example(cells, 0));
  }

  /** The cells of the fourth record. */
  lemma FourthCells(schema: seq<Feature>, tokens: seq<string>, cells: seq<Option<real>>)
    requires schema == ExampleSchema()
    requires tokens == ["?", "Thursday", "1.1", "A14", "2", "1"]
    requires cells == [None, Some(4.0), Some(1.1), Some(3.0), Some(2.0)]
    ensures forall i :: 0 <= i < |schema| ==> C45Data.ParseCell(schema[i], tokens[i]) == Ok(cells[i])
  {
    BinaryCell("?", None);
    DayCell("Thursday", 4.0);
    ContinuousCell("1.1", 1.1);
    CodeCell(3, "A14", 3.0);
    CodeCell(4, "2", 2.0);
    FiveCells(schema, tokens, cells);
  }

  /** The fourth record, whose BINARY value is missing, gives the fourth row.
      (Its parameters are pinned to literals by its requires, to keep the proof small.) */
  lemma FourthRecord(tokens: seq<string>, cells: seq<Option<real>>)
    requires tokens == ["?", "Thursday", "1.1", "A14", "2", "1"]
    requires cells == [None, Some(4.0), Some(1.1), Some(3.0), Some(2.0)]
    ensures C45Data.ParseRecord(ExampleSchema(), Text.Join(tokens, ',')) == Some(C45Data.Example(cells, 1))
  {
    forall i | 0 <= i < |tokens| ensures C45.IsField(tokens[i]) {
      PlainField(tokens[i]);
    }
    FourthCells(ExampleSchema(), tokens, cells);
    NumberWhole();
    C45Data.RecordOfFields(ExampleSchema(), tokens, C45Data.Example(cells, 1));
  }

  // ---------------------------------------------------------------- the whole pipeline

  /** A walk of three paths with three different file names: the second and third are found. */
  lemma FindPair(walk: seq<string>, names: seq<string>)
    requires |walk| == 3 && |names| == 3
    requires forall i :: 0 <= i < 3 ==> C45.BaseName(walk[i]) == names[i]
    requires names[0] != names[1] && names[0] != names[2] && names[1] != names[2]
    ensures C45.FindFile(names[1], walk) == Ok(walk[1])
    ensures C45.FindFile(names[2], walk) == Ok(walk[2])
  {
    C45.FindFileFirst(names[1], walk, 1);
    C45.FindFileFirst(names[2], walk, 2);
  }

  /** `_find_file` over a walk of the test directory finds both files of the pair in the
      `example_data` sub-directory, past the test file that comes first. */
  lemma ExampleFindFile(root: string, walk: seq<string>)
    requires walk == [root + "/" + "test_data.py",
                      root + "/example_data" + "/" + "example.data",
                      root + "/example_data" + "/" + "example.names"]
    ensures C45.FindFile("example.data", walk) == Ok(walk[1])
    ensures C45.FindFile("example.names", walk) == Ok(walk[2])
  {
    var names := ["test_data.py", "example.data", "example.names"];
    C45.BaseNameOfJoin(root, names[0]);
    C45.BaseNameOfJoin(root + "/example_data", names[1]);
    C45.BaseNameOfJoin(root + "/example_data", names[2]);
    FindPair(walk, names);
  }

  /** A record written from tokens is a record of its own file. */
  lemma RecordLine(tokens: seq<string>)
    requires |tokens| >= 1
    requires forall i :: 0 <= i < |tokens| ==> tokens[i] != [] && tokens[i][|tokens[i]| - 1] != '.'
    requires forall i, j :: 0 <= i < |tokens| && 0 <= j < |tokens[i]| ==>
      IsAlnum(tokens[i][j]) || tokens[i][j] == '.' || tokens[i][j] == '?'
    ensures C45.IsRecord(Text.Join(tokens, ','))
    ensures forall i :: 0 <= i < |tokens| ==> C45.IsField(tokens[i])
  {
    forall i | 0 <= i < |tokens| ensures C45.IsToken(tokens[i]) && C45.IsField(tokens[i]) {
      PlainField(tokens[i]);
    }
    C45.JoinIsRecord(tokens);
  }

  /** Two records, each parsing on its own, give two rows numbered 1 and 2. */
  lemma TwoRows(schema: seq<Feature>, records: seq<string>, e1: C45Data.Example, e2: C45Data.Example)
    requires |records| == 2
    requires C45Data.ParseRecord(schema, records[0]) == Some(e1)
    requires C45Data.ParseRecord(schema, records[1]) == Some(e2)
    ensures C45Data.ParseRecords(schema, records) == Ok([C45Data.Row(1, e1), C45Data.Row(2, e2)])
  {
    var r := C45Data.ParseRecords(schema, records);
    TwoParse(schema, records);
    TwoNumbered(schema, records, r.value, e1, e2);
  }

  /** Two records that each parse are all records that parse. */
  lemma TwoParse(schema: seq<Feature>, records: seq<string>)
    requires |records| == 2
    requires C45Data.ParseRecord(schema, records[0]).Some?
    requires C45Data.ParseRecord(schema, records[1]).Some?
    ensures C45Data.AllParse(schema, records)
  {
    forall i | 0 <= i < |records| ensures C45Data.ParseRecord(schema, records[i]).Some? {
      assert i == 0 || i == 1;
    }
  }

  /** Two records numbered from 1 are the rows of their two examples, in order. */
  lemma TwoNumbered(schema: seq<Feature>, records: seq<string>, rows: seq<C45Data.Row>,
                    e1: C45Data.Example, e2: C45Data.Example)
    requires |records| == 2 && C45Data.NumberedFrom(schema, records, rows)
    requires C45Data.ParseRecord(schema, records[0]) == Some(e1)
    requires C45Data.ParseRecord(schema, records[1]) == Some(e2)
    ensures rows == [C45Data.Row(1, e1), C45Data.Row(2, e2)]
  {
    assert rows[0].index == 1 && rows[1].index == 2;
  }

  /** The `.data` file made of the first and fourth records parses to two rows numbered 1 and 2.
      (Its parameters are pinned to literals by its requires, to keep the proof small.) */
  lemma ExampleRows(data: seq<string>, t1: seq<string>, t4: seq<string>, c1: seq<Option<real>>, c4: seq<Option<real>>)
    requires t1 == ["0", "Monday", "0.94", "A12", "1", "0"]
    requires t4 == ["?", "Thursday", "1.1", "A14", "2", "1"]
    requires c1 == [Some(0.0), Some(1.0), Some(0.94), Some(1.0), Some(1.0)]
    requires c4 == [None, Some(4.0), Some(1.1), Some(3.0), Some(2.0)]
    requires data == [Text.Join(t1, ','), Text.Join(t4, ',')]
    ensures C45Data.ParseData(ExampleSchema(), data)
         == Ok([C45Data.Row(1, C45Data.Example(c1, 0)), C45Data.Row(2, C45Data.Example(c4, 1))])
  {
    ExampleRecords(data, t1, t4);
    FirstRecord(t1, c1);
    FourthRecord(t4, c4);
    TwoRows(ExampleSchema(), data, C45Data.Example(c1, 0), C45Data.Example(c4, 1));
    assert C45Data.ParseData(ExampleSchema(), data) == C45Data.ParseRecords(ExampleSchema(), data);
  }

  /** The two example records are already in trimmed form. */
  lemma ExampleRecords(data: seq<string>, t1: seq<string>, t4: seq<string>)
    requires t1 == ["0", "Monday", "0.94", "A12", "1", "0"]
    requires t4 == ["?", "Thursday", "1.1", "A14", "2", "1"]
    requires data == [Text.Join(t1, ','), Text.Join(t4, ',')]
    ensures C45.Records(data) == data
  {
    RecordLine(t1);
    RecordLine(t4);
    C45.RecordsOfRecords(data);
  }

  /** A schema file and a data file of two rows load as a two-row dataset. */
  lemma LoadTwo(schemaLines: seq<string>, dataLines: seq<string>, schema: seq<Feature>,
                e1: C45Data.Example, e2: C45Data.Example)
    requires C45.ParseSchema(schemaLines) == Ok(schema)
    requires C45Data.ParseData(schema, dataLines) == Ok([C45Data.Row(1, e1), C45Data.Row(2, e2)])
    ensures C45Data.Load(schemaLines, dataLines)
         == Ok(C45Data.Dataset(schema, [e1.cells, e2.cells], [e1.classLabel, e2.classLabel]))
  {
    var r := C45Data.Load(schemaLines, dataLines);
    TwoTabulated(r.value, e1, e2);
  }

  /** A dataset that tabulates two rows numbered 1 and 2 holds their examples in that order. */
  lemma TwoTabulated(d: C45Data.Dataset, e1: C45Data.Example, e2: C45Data.Example)
    requires C45Data.Tabulates([C45Data.Row(1, e1), C45Data.Row(2, e2)], d)
    ensures d == C45Data.Dataset(d.schema, [e1.cells, e2.cells], [e1.classLabel, e2.classLabel])
  {
    var rows := [C45Data.Row(1, e1), C45Data.Row(2, e2)];
    assert rows[0] == C45Data.Row(1, C45Data.Example(d.x[0], d.y[0]));
    assert rows[1] == C45Data.Row(2, C45Data.Example(d.x[1], d.y[1]));
  }

  /** Once both files are found and present, `parse_c45` is the load of that file pair. */
  lemma ParseC45Found(name: string, walk: seq<string>, files: map<string, seq<string>>, np: string, dp: string)
    requires C45.FindFile(name + ".names", walk) == Ok(np) && C45.FindFile(name + ".data", walk) == Ok(dp)
    requires np in files && dp in files
    ensures C45Data.ParseC45(name, walk, files) == C45Data.Load(files[np], files[dp])
  {
  }

  /** The file names the example pair is looked up under. */
  lemma FileNames()
    ensures "example" + ".names" == "example.names" && "example" + ".data" == "example.data"
  {
  }

  /** The class line of the example `.names` file is a record. */
  lemma ClassLine()
    ensures C45.IsRecord("0,1")
  {
  }

  /** `parse_c45("example", ...)` over the example file pair: the schema, the matrix rows in file
      order (a missing value as None) and the labels.
      (Its parameters are pinned to literals by its requires, to keep the proof small.) */
  lemma ExampleDataset(root: string, walk: seq<string>, names: seq<string>, data: seq<string>,
                       t1: seq<string>, t4: seq<string>, c1: seq<Option<real>>, c4: seq<Option<real>>)
    requires walk == [root + "/" + "test_data.py",
                      root + "/example_data" + "/" + "example.data",
                      root + "/example_data" + "/" + "example.names"]
    requires t1 == ["0", "Monday", "0.94", "A12", "1", "0"]
    requires t4 == ["?", "Thursday", "1.1", "A14", "2", "1"]
    requires c1 == [Some(0.0), Some(1.0), Some(0.94), Some(1.0), Some(1.0)]
    requires c4 == [None, Some(4.0), Some(1.1), Some(3.0), Some(2.0)]
    requires names == C45.RenderSchema("0,1", ExampleSchema())
    requires data == [Text.Join(t1, ','), Text.Join(t4, ',')]
    ensures C45Data.ParseC45("example", walk, map[walk[1] := data, walk[2] := names])
         == Ok(C45Data.Dataset(ExampleSchema(), [c1, c4], [0, 1]))
  {
    var files := map[walk[1] := data, walk[2] := names];
    ExamplePair(root, walk);
    ParseC45Found("example", walk, files, walk[2], walk[1]);
    ExampleLoad(names, data, t1, t4, c1, c4);
  }

  /** The walk of the test directory yields the `.names` and `.data` paths of the example pair,
      which are two different paths. */
  lemma ExamplePair(root: string, walk: seq<string>)
    requires walk == [root + "/" + "test_data.py",
                      root + "/example_data" + "/" + "example.data",
                      root + "/example_data" + "/" + "example.names"]
    ensures C45.FindFile("example" + ".names", walk) == Ok(walk[2])
    ensures C45.FindFile("example" + ".data", walk) == Ok(walk[1])
    ensures walk[1] != walk[2]
  {
    ExampleFindFile(root, walk);
    FileNames();
    assert |walk[1]| < |walk[2]|;
  }

  /** The example file pair, given as its lines, loads as the expected dataset.
      (Its parameters are pinned to literals by its requires, to keep the proof small.) */
  lemma ExampleLoad(names: seq<string>, data: seq<string>,
                    t1: seq<string>, t4: seq<string>, c1: seq<Option<real>>, c4: seq<Option<real>>)
    requires t1 == ["0", "Monday", "0.94", "A12", "1", "0"]
    requires t4 == ["?", "Thursday", "1.1", "A14", "2", "1"]
    requires c1 == [Some(0.0), Some(1.0), Some(0.94), Some(1.0), Some(1.0)]
    requires c4 == [None, Some(4.0), Some(1.1), Some(3.0), Some(2.0)]
    requires names == C45.RenderSchema("0,1", ExampleSchema())
    requires data == [Text.Join(t1, ','), Text.Join(t4, ',')]
    ensures C45Data.Load(names, data) == Ok(C45Data.Dataset(ExampleSchema(), [c1, c4], [0, 1]))
  {
    ClassLine();
    ExampleSchemaParses("0,1");
    ExampleRows(data, t1, t4, c1, c4);
    LoadTwo(names, data, ExampleSchema(), C45Data.Example(c1, 0), C45Data.Example(c4, 1));
  }
}

=== FILE: outcomes.dfy ===
/** Failure-compatible wrappers and the error taxonomy of the C4.5 parser. */
module Outcomes {

  datatype Option<+T> = None | Some(value: T)

  /** Every way a feature construction, an encoding or a parse can fail. */
  datatype Error =
    | InvalidFeatureType(typeName: string)
    | MissingNominalValues
    | UnexpectedValues
    | DuplicateNominalValue
    | UnknownNominalValue
    | InvalidBinaryEncoding
    | InvalidContinuousValue
    | FileNotFound(fileName: string)
    | SchemaParseError(declaration: nat)
    | RowParseError(row: nat)

  /** Either a value or the error that stopped the computation; usable with `:-`. */
  datatype Result<+T> = Ok(value: T) | Err(error: Error) {

    predicate IsFailure() {
      Err?
    }

    function PropagateFailure<U>(): Result<U>
      requires Err?
    {
      Err(error)
    }

    function Extract(): T
      requires Ok?
    {
      value
    }
  }
}

=== FILE: text.dfy ===
/** The character-level helpers the parser is built from: whitespace stripping,
    searching, splitting on a separator, ASCII upper-casing and decimal numbers. */
module Text {
  import opened Outcomes

  /** The ASCII characters Python's `str.strip()` removes: space, tab, line feed, vertical tab,
      form feed, carriage return and the four separators 0x1C to 0x1F. */
  predicate IsSpace(c: char) {
    c == ' ' || c == '\t' || c == '\n' || c == '\r' || c == 11 as char || c == 12 as char
    || c == 28 as char || c == 29 as char || c == 30 as char || c == 31 as char
  }

  /** A string with no whitespace at either end. */
  predicate Stripped(s: string) {
    s == [] || (!IsSpace(s[0]) && !IsSpace(s[|s| - 1]))
  }

  /** The number of whitespace characters that open `s`. */
  function LeadingSpaces(s: string): (n: nat)
    ensures n <= |s|
    ensures forall i :: 0 <= i < n ==> IsSpace(s[i])
    ensures n == |s| || !IsSpace(s[n])
  {
    if |s| > 0 && IsSpace(s[0]) then 1 + LeadingSpaces(s[1..]) else 0
  }

  /** Drops leading whitespace. */
  function TrimStart(s: string): (r: string)
    ensures r == s[LeadingSpaces(s)..]
  {
    if |s| > 0 && IsSpace(s[0]) then TrimStart(s[1..]) else s
  }

  /** Drops trailing whitespace. */
  function TrimEnd(s: string): (r: string)
    ensures |r| <= |s| && r == s[..|r|]
    ensures r == [] || !IsSpace(r[|r| - 1])
    ensures forall i :: |r| <= i < |s| ==> IsSpace(s[i])
  {
    if |s| > 0 && IsSpace(s[|s| - 1]) then TrimEnd(s[..|s| - 1]) else s
  }

  /** Python's `str.strip()`: what is left of `s` after removing the whitespace at both
      ends, and only that whitespace. */
  function Strip(s: string): (r: string)
    ensures Stripped(r)
    ensures LeadingSpaces(s) + |r| <= |s| && r == s[LeadingSpaces(s)..LeadingSpaces(s) + |r|]
    ensures forall i :: LeadingSpaces(s) + |r| <= i < |s| ==> IsSpace(s[i])
  {
    var n := LeadingSpaces(s);
    var t := TrimStart(s);
    var r := TrimEnd(t);
    assert forall i :: n + |r| <= i < |s| ==> s[i] == t[i - n];
    r
  }

  /** Stripping a string that has no whitespace at its ends changes nothing. */
  lemma StripStripped(s: string)
    requires Stripped(s)
    ensures Strip(s) == s
  {
  }

  /** The position of the first occurrence of `c` in `s`, if any. */
  function Find(s: string, c: char): (r: Option<nat>)
    ensures r.None? <==> c !in s
    ensures r.Some? ==> r.value < |s| && s[r.value] == c && c !in s[..r.value]
  {
    if |s| == 0 then None
    else if s[0] == c then Some(0)
    else
      match Find(s[1..], c)
      case None => None
      case Some(k) =>
        assert s[..k + 1] == [s[0]] + s[1..][..k];
        Some(k + 1)
  }

  /** Find stops at the first separator: in `p + [c] + t` with `c` absent from `p` it is at `|p|`. */
  lemma FindAfter(p: string, c: char, t: string)
    requires c !in p
    ensures Find(p + [c] + t, c) == Some(|p|)
  {
    assert (p + [c] + t)[|p|] == c;
  }

  /** Python's `str.split(sep)`: the pieces between the separators, in order. */
  function Split(s: string, sep: char): (r: seq<string>)
    ensures |r| >= 1
    ensures forall i :: 0 <= i < |r| ==> sep !in r[i]
    decreases |s|
  {
    match Find(s, sep)
    case None => [s]
    case Some(k) => [s[..k]] + Split(s[k + 1..], sep)
  }

  /** Python's `sep.join(parts)`. */
  function Join(parts: seq<string>, sep: char): string {
    if |parts| == 0 then ""
    else if |parts| == 1 then parts[0]
    else parts[0] + [sep] + Join(parts[1..], sep)
  }

  /** Splitting loses nothing: joining the pieces back gives the original string. */
  lemma {:induction false} JoinSplit(s: string, sep: char)
    ensures Join(Split(s, sep), sep) == s
    decreases |s|
  {
    match Find(s, sep)
    case None =>
    case Some(k) =>
      var rest := s[k + 1..];
      var parts := Split(rest, sep);
      JoinSplit(rest, sep);
      assert Split(s, sep) == [s[..k]] + parts;
      assert ([s[..k]] + parts)[1..] == parts;
      assert Join([s[..k]] + parts, sep) == s[..k] + [sep] + Join(parts, sep);
      assert s == s[..k] + [sep] + rest;
  }

  /** Joining pieces that hold no separator, then splitting, gives the pieces back. */
  lemma {:induction false} SplitJoin(parts: seq<string>, sep: char)
    requires |parts| >= 1
    requires forall i :: 0 <= i < |parts| ==> sep !in parts[i]
    ensures Split(Join(parts, sep), sep) == parts
  {
    if |parts| > 1 {
      var rest := Join(parts[1..], sep);
      var s := parts[0] + [sep] + rest;
      assert Join(parts, sep) == s;
      FindAfter(parts[0], sep, rest);
      assert s[..|parts[0]|] == parts[0];
      assert s[|parts[0]| + 1..] == rest;
      assert Split(s, sep) == [parts[0]] + Split(rest, sep);
      SplitJoin(parts[1..], sep);
      assert parts == [parts[0]] + parts[1..];
    }
  }

  function UpperChar(c: char): char {
    if 'a' <= c <= 'z' then (c as int - 32) as char else c
  }

  /** ASCII upper-casing, used for case-insensitive keyword comparison. */
  function Upper(s: string): string {
    seq(|s|, i requires 0 <= i < |s| => UpperChar(s[i]))
  }

  predicate IsDigit(c: char) {
    '0' <= c <= '9'
  }

  predicate AllDigits(s: string) {
    forall i :: 0 <= i < |s| ==> IsDigit(s[i])
  }

  /** The value of a string of decimal digits, most significant first. */
  function DigitsValue(s: string): nat
    requires AllDigits(s)
  {
    if |s| == 0 then 0
    else 10 * DigitsValue(s[..|s| - 1]) + (s[|s| - 1] as int - '0' as int)
  }

  function Pow10(n: nat): (p: nat)
    ensures p >= 1
  {
    if n == 0 then 1 else 10 * Pow10(n - 1)
  }

  function DigitChar(d: nat): (c: char)
    requires d < 10
    ensures IsDigit(c) && c as int - '0' as int == d
  {
    ('0' as int + d) as char
  }

  /** The shortest decimal notation of a natural number. */
  function ShowNat(n: nat): (s: string)
    ensures |s| >= 1 && AllDigits(s)
  {
    if n < 10 then [DigitChar(n)] else ShowNat(n / 10) + [DigitChar(n % 10)]
  }

  lemma {:induction false} ShowNatValue(n: nat)
    ensures DigitsValue(ShowNat(n)) == n
  {
    if n >= 10 {
      var s := ShowNat(n);
      ShowNatValue(n / 10);
      assert s[..|s| - 1] == ShowNat(n / 10);
    }
  }

  /** An unsigned decimal `ddd`, `ddd.ddd`, `ddd.` or `.ddd`. */
  function ParseUnsigned(s: string): (r: Option<real>)
    ensures r.Some? ==> r.value >= 0.0
  {
    match Find(s, '.')
    case None =>
      if |s| > 0 && AllDigits(s) then Some(DigitsValue(s) as real) else None
    case Some(k) =>
      var whole, frac := s[..k], s[k + 1..];
      if |whole| + |frac| > 0 && AllDigits(whole) && AllDigits(frac)
      then Some(PointValue(whole, frac))
      else None
  }

  /** The value of the digits `whole` and `frac` written either side of a decimal point. */
  function PointValue(whole: string, frac: string): (v: real)
    requires AllDigits(whole) && AllDigits(frac)
    ensures v >= DigitsValue(whole) as real
  {
    DigitsValue(whole) as real + DigitsValue(frac) as real / Pow10(|frac|) as real
  }

  /** A decimal number with an optional sign, as a data file writes one. */
  function ParseNumber(s: string): Option<real> {
    if |s| > 0 && s[0] == '-' then
      match ParseUnsigned(s[1..])
      case Some(x) => Some(-x)
      case None => None
    else if |s| > 0 && s[0] == '+' then ParseUnsigned(s[1..])
    else ParseUnsigned(s)
  }

  /** Every natural number's decimal notation reads back as that number, with or without a sign. */
  lemma ParseNumberShowNat(n: nat)
    ensures ParseNumber(ShowNat(n)) == Some(n as real)
    ensures ParseNumber("+" + ShowNat(n)) == Some(n as real)
    ensures ParseNumber("-" + ShowNat(n)) == Some(-(n as real))
  {
    var s := ShowNat(n);
    ShowNatValue(n);
    assert s[0] != '-' && s[0] != '+';
    assert ("+" + s)[1..] == s && ("-" + s)[1..] == s;
  }

  lemma DigitsAppendZero(s: string)
    requires AllDigits(s)
    ensures AllDigits(s + "0") && DigitsValue(s + "0") == 10 * DigitsValue(s)
  {
    assert (s + "0")[..|s|] == s;
  }

  lemma ScaleFraction(a: nat, p: nat)
    requires p >= 1
    ensures (10 * a) as real / (10 * p) as real == a as real / p as real
  {
  }

  /** The parts around the first point of `whole + "." + frac`. */
  lemma PointSplit(whole: string, frac: string)
    requires AllDigits(whole)
    ensures Find(whole + "." + frac, '.') == Some(|whole|)
    ensures (whole + "." + frac)[..|whole|] == whole && (whole + "." + frac)[|whole| + 1..] == frac
  {
    FindAfter(whole, '.', frac);
  }

  /** A number with a point reads as its whole part plus its fraction scaled by the fraction's
      length. */
  lemma ParseUnsignedPoint(whole: string, frac: string)
    requires AllDigits(whole) && AllDigits(frac) && |whole| + |frac| > 0
    ensures ParseUnsigned(whole + "." + frac) == Some(PointValue(whole, frac))
  {
    PointSplit(whole, frac);
  }

  /** Trailing zeros in the fraction do not change the number read. */
  lemma ParseUnsignedTrailingZero(whole: string, frac: string)
    requires AllDigits(whole) && AllDigits(frac) && |whole| + |frac| > 0
    ensures ParseUnsigned(whole + "." + frac + "0") == ParseUnsigned(whole + "." + frac)
  {
    var f0 := frac + "0";
    DigitsAppendZero(frac);
    assert whole + "." + frac + "0" == whole + "." + f0;
    ParseUnsignedPoint(whole, frac);
    ParseUnsignedPoint(whole, f0);
    PointValueTrailingZero(whole, frac);
  }

  lemma PointValueTrailingZero(whole: string, frac: string)
    requires AllDigits(whole) && AllDigits(frac)
    ensures AllDigits(frac + "0") && PointValue(whole, frac + "0") == PointValue(whole, frac)
  {
    var f0 := frac + "0";
    DigitsAppendZero(frac);
    assert Pow10(|f0|) == 10 * Pow10(|frac|);
    ScaleFraction(DigitsValue(frac), Pow10(|frac|));
  }
}
